=== FILE: README.md ===
# Spoties product fields — a Dafny model

Spoties is a set of storefront custom elements for a personalised "Spotify
plaque" product:

- A **search field** looks up songs or albums in the Spotify catalogue. A
  chosen result is rendered as a scannable Spotify code image, and the
  result is broadcast to the other fields.
- A **cover field** holds the cover picture. A search selection also sets it
  to the chosen result's image.
- **Text fields** hold free text. The record-name and artist-name fields also
  follow the search selection.
- An **option field** always accepts.
- A **fields container** validates every child before the product can go to
  the cart. It also forwards each field's `update` event to the preview.
- A **preview element** paints the product mock-up on a canvas. It picks the
  template image for the selected variant, loads the assets the template's
  layout needs (cover, Spotify code, web fonts), then draws every layout
  element.

The shared base class supplies the helpers for colours and code images:
- `hexToRgb`
- `getSpotifyCode`, which uses a decoy background colour that is afterwards
  turned transparent;
- exact-match colour substitution on an RGBA pixel buffer;
- `base64toBlob`.

The model is written in Dafny as pure functions over immutable data. There
are a few methods for the byte loops. The modules follow the source:

| module | what it holds |
|---|---|
| `JsValues`, `JsStrings` | The JavaScript semantics the code relies on: truthiness and `\|\|`, `typeof` object, string conversion, `trim`, `parseInt` and `join`. |
| `Color` | `hexToRgb` |
| `Blob` | `base64toBlob` |
| `Bitmap` | Pixel buffers, colour substitution and the 54px padding crop. |
| `CodeImage` | `getSpotifyCode` |
| `Validation` | Every field's `validate`, and the container's. |
| `Search` | Result mapping, the search and load-more guard, and the selection fan-out. |
| `Preview` | Template selection, the render-state merge, repaint phases A and B, and the variant-change rule. |
| `Storefront` | Properties that follow a field's update into the preview. |

Some inputs are parameters rather than modelled behaviour:
- The network is a parameter. The bitmap the code service returns is an
  argument of `GetSpotifyCode`.
- Each asset load of a repaint is answered by a function
  `AssetTask -> Option<nat>`, where `None` means the promise rejects.
- Whether the template image loaded is a boolean.

The model follows the code in these points:
- **Decoy background.** For every colour other than `black`, the background
  is `fffffe`. Nothing is derived from the colour.
- **Removed pixels.** A pixel of the decoy colour becomes (0,0,0,0). Its RGB
  is not kept.
- **No render cache.** There is no separate render cache. However, phase A
  writes every loaded cover and code image back into the object it was given.
  For `spotiesUpdate` that object is the element's own data, so later
  repaints do not load those assets again (`Preview.LoadedAssetsAreNotReloaded`).
- **Draws per element.** Phase B does not emit one draw per layout element.
  Elements of an unknown type draw nothing, and a cover or code entry that is
  not an image makes the whole pass throw.

## Model

| member | source | states |
|---|---|---|
| JsValues.Or | assets/spoties-fields.js:512 | `a \|\| b` is truthy exactly when one operand is; it is the left operand when that is truthy and the right one otherwise |
| JsValues.OrAssociative | assets/spoties-fields.js:568 | the three-way fallback `detail[key] \|\| defaults[type] \|\| element.default` groups either way |
| JsValues.IsObjectIsTypeofObject | assets/spoties-fields.js:510 | `typeof v === 'object'` holds exactly for `null` and for images |
| JsStrings.Trim | assets/spoties-fields.js:359 | a trimmed string neither starts nor ends with white space |
| JsStrings.TrimIsSlice | assets/spoties-fields.js:359 | `trim()` returns the slice of the input between an all-white-space prefix and an all-white-space suffix |
| JsStrings.TrimEmptyIffAllWhiteSpace | assets/spoties-fields.js:359 | `s.trim() === ''` exactly when every character of `s` is white space |
| JsStrings.ParseIntOfIntToString | assets/spoties-fields.js:360-361 | `parseInt` of the decimal spelling of any integer gives that integer back |
| JsStrings.JoinLength | assets/spoties-fields.js:215-217 | joining n names adds exactly n-1 separators to their characters |
| JsStrings.JoinCons | assets/spoties-fields.js:215-217 | a joined list is its first name, the separator, then the join of the rest |
| Color.HexToRgb | assets/spoties-fields.js:2-9 | a colour is returned exactly when the input is six hex digits of either case with an optional leading `#`; each channel is the value of its digit pair |
| Color.HexToRgbOfToHex | assets/spoties-fields.js:2-9 | parsing the canonical spelling of any colour, with or without `#`, gives the colour back |
| Color.ToHexOfHexToRgb | assets/spoties-fields.js:2-9 | printing a parsed colour gives back the parsed digits, lower-cased: only the `#` and the letter case are forgotten |
| Color.HexToRgbCaseInsensitive | assets/spoties-fields.js:3 | spellings that differ only in letter case parse to the same colour |
| Blob.Base64ToBlob | assets/spoties-fields.js:33-52 | the blob has ceil(n/1024) parts; part i holds the character codes of [1024i, min(1024(i+1), n)); every part is non-empty and at most 1024 long; the parts concatenate to all codes in order; the type is `contentType \|\| ''` |
| Bitmap.ReplaceColor | assets/spoties-fields.js:100-111 | every pixel whose RGB equals the old colour gets the new RGB, and its alpha becomes the new alpha when given or stays otherwise; every other pixel keeps its four bytes; the length is unchanged |
| Bitmap.ReplaceColorInImage | assets/spoties-fields.js:89-114 | the in-place loop over the buffer, four bytes at a time, produces exactly the per-pixel substitution |
| Bitmap.ReplacedIsUnique | assets/spoties-fields.js:100-111 | the per-pixel description of the substitution determines the output buffer completely |
| Bitmap.NoMatchRemains | assets/spoties-fields.js:105-110 | when the new RGB differs from the old colour, no pixel of the old colour is left |
| Bitmap.ReplaceColorIdempotent | assets/spoties-fields.js:100-111 | substituting a second time changes nothing |
| Bitmap.PaddingCrop | assets/spoties-fields.js:74-79 | the crop reads the rectangle starting at (54,54) that leaves 54px on every side, and copies it unscaled onto a canvas of exactly (w-108, h-108) |
| Bitmap.CropPadding | assets/spoties-fields.js:72-81 | the cropped image has the canvas size of the crop, and its pixel (x,y) is the source pixel (x+54, y+54) |
| Bitmap.CropDataAt | assets/spoties-fields.js:79 | byte c of cropped pixel (x,y) lies inside the cropped buffer and is byte c of source pixel (x+54, y+54) |
| CodeImage.FetchBackground | assets/spoties-fields.js:69 | with background removal the fetch background is `000001` exactly for `black` and `fffffe` exactly for every other colour; without it the caller's background is used unchanged |
| CodeImage.DecoyParses | assets/spoties-fields.js:84 | `hexToRgb('#' + bg)` always succeeds under background removal, giving (0,0,1) for black and (255,255,254) otherwise |
| CodeImage.DecoyDiffersFromForeground | assets/spoties-fields.js:69 | the decoy is never the colour of a black or white code, so removing it leaves the code itself intact |
| CodeImage.CodeUrlInjective | assets/spoties-fields.js:70 | background, colour, width and URI can be read back from the URL: two URLs are equal only when all four parts are |
| CodeImage.Cropped | assets/spoties-fields.js:72-81 | without padding removal the fetched image is kept; with it the result is 108px smaller in each dimension and a shifted copy of the fetched pixels |
| CodeImage.Processed | assets/spoties-fields.js:72-85 | the processed image is well-formed and has the cropped dimensions |
| CodeImage.GetSpotifyCode | assets/spoties-fields.js:68-87 | the requested URL is the endpoint followed by the chosen background, colour, width and URI; there is no image exactly when the crop leaves an empty canvas (an edge of exactly 108px), whose `data:,` URL cannot be loaded; otherwise the image is the fetched one, cropped when asked, with the decoy colour removed exactly when the background is |
| CodeImage.ProcessedPixels | assets/spoties-fields.js:72-85 | every returned pixel is the fetched pixel shifted by the cut padding, except that pixels of the decoy colour become 0 |
| CodeImage.BackgroundRemoved | assets/spoties-fields.js:82-85 | with background removal, no pixel of the decoy colour remains in the returned image |
| Validation.ValidateSearch | assets/spoties-fields.js:150-160 | the search field fails exactly when it is required and the URI is `null`, `undefined` or `''`, and then shows only the song message |
| Validation.ValidateCover | assets/spoties-fields.js:295-302 | the cover field fails exactly when the cover data is `null`, `undefined` or `''`, and then shows only the cover message |
| Validation.MessagesDistinct | assets/spoties-fields.js:364-370 | the three text-field messages are pairwise different, whatever the attribute texts |
| Validation.TextErrors | assets/spoties-fields.js:363-371 | there are no messages exactly when all three checks pass; the required message appears exactly when that check fails and the minimum holds; each length message appears exactly when its check fails; the order is required, minimum, maximum; no other message is ever shown |
| Validation.RequiredValid | assets/spoties-fields.js:359 | a required value is accepted exactly when it has a character that is not white space |
| Validation.MinValidMeaning | assets/spoties-fields.js:360 | a `minlength` written as the decimal spelling of n is met exactly when the value has at least n characters; an attribute `parseInt` cannot read is never met; without the attribute the minimum always holds |
| Validation.MaxValidMeaning | assets/spoties-fields.js:361 | a `maxlength` written as the decimal spelling of n is met exactly when the value has at most n characters; an attribute `parseInt` cannot read is never met; without the attribute the maximum always holds |
| Validation.ValidateText | assets/spoties-fields.js:355-373 | a text field is valid exactly when the required, minimum and maximum checks all pass, and exactly when it shows no message; it shows at most three messages, in the order required, minimum, maximum, each being the required message or the minimum or maximum message with the element's own attribute text; a length message appears exactly when its check fails, so never for an absent attribute |
| Validation.NoAttributesAlwaysValid | assets/spoties-fields.js:359-361 | with none of the three attributes, every value is accepted without messages |
| Validation.ValidateField | assets/spoties-fields.js:608 | `child.validate()` dispatches to the child's own method: a search field answers the search check, a cover field the cover check, a text field the text check, and an option field accepts unconditionally (409-413); only a child without the method throws |
| Validation.Combine | assets/spoties-fields.js:608 | mapping over the results either returns every child's verdict in order, valid exactly when all are, or stops at the first child that throws |
| Validation.ValidateFields | assets/spoties-fields.js:606-610 | every child is validated, with no short-circuit on failure, and the container is valid exactly when every child is; a child without `validate` makes the call throw at that child |
| Validation.MissingCoverBlocksSubmit | assets/spoties-fields.js:297-299 | a cover field without an image makes the container invalid, and that field shows the cover message |
| Validation.MissingSongBlocksSubmit | assets/spoties-fields.js:150-160 | a required search field with no chosen song makes the container invalid, and that field shows the song message |
| Validation.BlankTextBlocksSubmit | assets/spoties-fields.js:355-373 | a required text field holding only white space makes the container invalid, and shows the required message unless its minimum length also fails |
| Validation.OptionalSearchNeverFails | assets/spoties-fields.js:153-159 | a search field that is not required accepts any URI, without messages |
| Search.HitOf | assets/spoties-fields.js:213-219 | an item gives a result exactly when its album (or the item itself) has at least two images; the result carries the item's own name and URI, the URL of the album's second image, and the album's artist names joined by `, ` |
| Search.MapHits | assets/spoties-fields.js:212-249 | results come one per item, in item order, until the first item without a second image, which stops the loop |
| Search.ShowResults | assets/spoties-fields.js:211 | track items are shown when the response has tracks, album items otherwise; a response with neither throws before showing anything |
| Search.TrackShowsAlbumArtists | assets/spoties-fields.js:213-217 | a track's result lists its album's artists joined by `, ` |
| Search.ShouldSearchIffNonBlank | assets/spoties-fields.js:174 | a search runs exactly when not loading and the query has a character that is not white space |
| Search.OnSearch | assets/spoties-fields.js:172-179 | a search runs exactly for a non-blank query while not loading; it clears the shown results and asks for offset 0; otherwise nothing changes |
| Search.OnLoadMore | assets/spoties-fields.js:181-188 | load-more runs under the same guard and asks for the offset equal to the number of results already shown |
| Search.PagingAppends | assets/spoties-fields.js:186-187 | repeated load-more appends the pages in arrival order, one request per page |
| Search.PagingIsContiguous | assets/spoties-fields.js:186 | the k-th load-more asks for the offset just past everything shown before it, so no result is skipped or repeated |
| Search.UpdateKey | assets/spoties-fields.js:385-401 | the record-name field copies the selection's `record`, the artist-name field its `artists`, and plain text fields follow no selection |
| Search.OnSelected | assets/spoties-fields.js:279-283 | exactly the record-name and artist-name fields, and the cover field when the result's image was fetched, react to a selection; a text field only changes its input value and sends `{[input.id]: value}`; the cover field stores the fetched data URL and sends it as `spoties-cover` |
| Search.SelectionFillsCover | assets/spoties-fields.js:327-333 | after a selection whose image was fetched, the cover field is valid and its update carries that image |
| Search.SelectionFillsRecordAndArtist | assets/spoties-fields.js:385-401 | after a selection the record-name field holds the result's name and the artist-name field its joined artists |
| Preview.FirstMatch | assets/spoties-fields.js:485 | the index found is that of the first template whose variants include the variant, and there is none when no template does |
| Preview.SelectTemplate | assets/spoties-fields.js:484-486 | the preview is the first template serving the variant, and there is none exactly when no template serves it |
| Preview.Merge | assets/spoties-fields.js:459 | after `Object.assign` the keys are those of both; the detail's values win and every other value is kept |
| Preview.MergeIdempotent | assets/spoties-fields.js:459 | receiving the same update twice leaves the state as after the first |
| Preview.MergeSequential | assets/spoties-fields.js:459 | two updates in a row act like one update carrying both, the later one winning |
| Preview.CodeTaskUrl | assets/spoties-fields.js:519-521 | the URL a code task requests for a colour carries width 1080 and that colour, on the background `000001` for `black` and `fffffe` for every other colour |
| Preview.CodeTaskIsGetSpotifyCode | assets/spoties-fields.js:521 | a code task requests exactly the URL of `getSpotifyCode(uri, true, true, color)` with the default background and width; the image it yields is 108px smaller in each dimension with no pixel of the decoy colour left, and there is none when an edge of the fetched image is exactly 108px |
| Preview.Plan | assets/spoties-fields.js:509-541 | every element's asset task is requested and nothing else; there are at most as many tasks as elements |
| Preview.PlanConcat | assets/spoties-fields.js:509-541 | tasks come in settings order: a layout split in two plans its first part, then its second, and one element gives just its own task |
| Preview.PlanLoadsCoverIff | assets/spoties-fields.js:510-516 | a cover is requested exactly when the layout has a cover element and the state holds no object under `spoties-cover`; its source is the state's value or else the default cover |
| Preview.PlanTaskCover | assets/spoties-fields.js:510-512 | a single element asks for a cover exactly when it is a cover element and the state's cover is not an object |
| Preview.Resolve | assets/spoties-fields.js:513-542 | awaiting all loads succeeds exactly when every load does; when some cover or code load succeeds its key holds an image, whatever the others do; when none does the key keeps its old value; every other key is unchanged |
| Preview.ResolveStoresLastLoaded | assets/spoties-fields.js:513-526 | the image left under the cover or code key is the one the last successful task for that key loaded, so a single loaded task leaves exactly its own image |
| Preview.LoadedAssetsAreNotReloaded | assets/spoties-fields.js:510-526 | after a repaint whose loads all succeeded, planning against the updated state requests fonts only |
| Preview.KeyOf | assets/spoties-fields.js:546 | a text element reads `spoties-` followed by the string form of its `inputId`; a cover, code, record or artist element reads `spoties-<type>` |
| Preview.TextFallbacks | assets/spoties-fields.js:568 | the drawn text is the entered value when truthy, else the element-type default when truthy, else the layout default; with none of them the string `undefined` is drawn |
| Preview.FontDefaults | assets/spoties-fields.js:569 | an element without a font object draws in `normal 50px arial` |
| Preview.FontOfObject | assets/spoties-fields.js:569 | with a font object giving weight w, a non-zero size n and name f, the text is drawn in `w npx f` |
| Preview.DrawOf | assets/spoties-fields.js:547-574 | a cover or code element throws exactly when its state entry is not an image; otherwise it draws that image at its position and size, rotated when `rotate` is truthy; text kinds draw their resolved text at their position in the element's font, alignment (`center` by default) and colour (`black` by default); other kinds draw nothing |
| Preview.Collect | assets/spoties-fields.js:545 | the pass over the elements succeeds exactly when no element throws |
| Preview.CollectInOrder | assets/spoties-fields.js:545 | collected draws keep element order, each one after the draws of the elements before it |
| Preview.Draws | assets/spoties-fields.js:545-575 | phase B produces a picture exactly when no element's draw throws |
| Preview.DrawsInOrder | assets/spoties-fields.js:545-575 | phase B emits one draw per drawing element in settings order; element i's draw is at position "number of drawing elements before i" |
| Preview.Repaint | assets/spoties-fields.js:496-580 | with no template for the variant, the repaint throws before touching the state; a template image that fails to load or missing settings also leave the state untouched; otherwise the state afterwards is exactly what awaiting the planned loads stored; only the cover and code entries can change; a picture uses the selected template and its layout's draws over the updated state, and needs the template image to have loaded and every planned asset load to succeed; when a planned load rejects there is no picture, only the load failure |
| Preview.ResolvedEntries | assets/spoties-fields.js:509-542 | when every load succeeds and the layout has a cover (or code) element, that entry ends as an image exactly when it was not `null` before |
| Preview.ResolveStoresCommon | assets/spoties-fields.js:513-526 | when every successful load for a key returns the same image, the key ends holding that image |
| Preview.RepaintDrawsLoadedCover | assets/spoties-fields.js:510-556 | in a repaint that yields a picture from a state without a cover object, every cover element draws exactly the image its cover load returned |
| Preview.LoadedRepaintDraws | assets/spoties-fields.js:509-564 | when the template and its settings exist and every load succeeds, a repaint yields a picture exactly when no cover or code element meets a `null` entry: any other value is loaded or already an image |
| Preview.RepaintDependsOnTemplate | assets/spoties-fields.js:488-494 | two variants that select the same template repaint identically |
| Preview.RepaintOnVariantAsWritten | assets/spoties-fields.js:465-468 | the rule as written throws when the current variant has no template, and otherwise repaints exactly when the old template does not list the new variant |
| Preview.AsWrittenMissesTemplateChange | assets/spoties-fields.js:465-469 | an input where the rule as written skips the repaint although the selected template changes |
| Preview.AsWrittenSoundForDisjointVariants | assets/spoties-fields.js:467 | when no variant is served by two templates, a skip under the rule as written keeps the selected template |
| Preview.SkippedRepaintIsCurrent | assets/spoties-fields.js:467-469 | under the corrected rule, a skipped repaint would have painted the same picture as the current one |
| Preview.CorrectedRuleCatchesCounterexample | assets/spoties-fields.js:467 | the corrected rule repaints on the input the rule as written misses |
| Preview.Init | assets/spoties-fields.js:456-473 | the element starts with the given variant and no data at all; its first paint can only set the cover and code entries, fails with no template for the variant, and otherwise needs the template image and uses the selected template |
| Preview.InitDropsLoadedCover | assets/spoties-fields.js:456-473 | even when the first paint loaded a cover, the element's data holds none, so the first update that sends no cover object requests the cover again |
| Preview.OnSpotiesUpdate | assets/spoties-fields.js:458-461 | after an update the repaint works on the merged data; every sent key other than the cover and code entries holds the sent value; unsent keys keep their values; the data is the state the repaint left |
| Preview.OnVariantChangeAsWritten | assets/spoties-fields.js:464-470 | the variant becomes the string form of the new id even when the listener then throws; it throws exactly when the old variant has no template, leaving the data alone; otherwise it repaints from the data exactly when the old template does not list the new variant |
| Preview.AsWrittenTransitionKeepsStalePicture | assets/spoties-fields.js:465-469 | on two templates sharing a variant, the listener as written skips the repaint although the selected template changes |
| Preview.OnVariantChange | assets/spoties-fields.js:467 | corrected rule: the variant becomes the string form of the new id; a repaint from the data happens exactly when the selected template changes; without one the data is unchanged |
| Preview.UpdatedTextIsDrawn | assets/spoties-fields.js:458-461 | a non-empty text sent by a field is what its element draws after the update, whatever the asset loads did |
| Storefront.SelectedRecordIsDrawn | assets/spoties-fields.js:387-389 | choosing a search result makes every record element draw the result's name |
| Storefront.SelectedArtistsAreDrawn | assets/spoties-fields.js:398-402 | choosing a search result makes every artist element draw the result's joined artists |
| Storefront.NewCoverIsLoaded | assets/spoties-fields.js:332 | a new cover sent by the cover field is loaded on the next repaint from exactly that source, never hidden by an earlier cached image |
| Storefront.SelectedCodeIsRefetched | assets/spoties-fields.js:228-233 | after a selection, the next repaint requests the code again for the sent URI, in the element's colour |

## Left out

- Network and file I/O are parameters: `imgUrlToBase64`/XHR, `toBase64`/FileReader, `loadImage`, `getToken`/`getResults`, and font loading.
- `atob`, `Blob`, `FontFace` and `toDataURL` are browser primitives. Base64 decoding is not modelled; `Base64ToBlob` starts from the decoded string. PNG encoding is taken to be lossless.
- Canvas rasterisation is not modelled. Draws are abstract commands.
- The rotation maths is floating point. `rotate` is carried as an opaque value of the draw.
- Cropper.js (`uploadFile`, `onSave`) is a foreign library.
- `innerHTML` building, the error-list element and result DOM nodes are UI. A verdict's `errors` stands for the messages added.
- Custom-element registration and `CustomEvent` dispatch are direct function calls and map merges. The relay of `resClick` and `update` events is the composition in `Storefront`.
- `Promise.all` is resolved sequentially, and a rejection does not cancel the other loads.
- Preview.Resolve: when two tasks load for the same key, the source keeps the image whose load finished last; the model keeps the last in settings order, because completion order is not modelled.
- The `spotify_code` and `cover_image` getters and `addToFormData` are plumbing that feeds `base64toBlob` from a data URL and appends form fields.
- The search field's `loading` flag is a parameter. The source never sets it to true.
- Search.PagingIsContiguous: each page is taken to arrive before the next load-more click. The source has no request in flight guard, so two clicks before a response both ask for the same offset and that page is appended twice; concurrent requests are not modelled.
- Search.OnSearch: a response is taken to belong to the latest search. In the source a slow response to an earlier query is appended after a newer search cleared the list; out-of-order responses are not modelled.
- Search.OnSelected: fetching the result's image as a data URL is I/O; its outcome is a parameter, `None` when the fetch rejects.
- CodeImage.GetSpotifyCode: images narrower or shorter than 108px are outside the model, because the canvas behaviour for a negative size is left out; padding removal requires at least 108px in each dimension. An edge of exactly 108px gives no image.
- Preview.DrawOf: does not model the canvas ignoring an invalid `font`, `textAlign` or `fillStyle`, because that is canvas behaviour.
- Preview.DrawOf: a missing `position` array would throw; the model takes `position[0]` and `position[1]` as element fields.
- Preview.Repaint: the variant and the template are read once. The source re-reads `preview_id` after each await, so a variant change mid-repaint is not modelled.
- Preview.KeyOf: a text element whose `inputId` is `cover` or `code` reads the cover or code entry; this aliasing is kept as in the source.
- Variant ids and `includes` are compared as JavaScript values by structural equality.
- Validation.ValidateText: a Dafny character stands for one JavaScript string element, but characters outside the Basic Multilingual Plane are two UTF-16 code units in JavaScript. "🎵🎵" has length 4 there, so under `maxlength` 3 the source rejects what a character count accepts; the model does not relate characters to code units.
- JsValues.JsValue: numbers are integers. Fractions, `NaN`, infinities and `-0` are not modelled, so a size of `12.5` or a `NaN` from a layout cannot be written.
- Preview.OnSpotiesUpdate: each repaint runs to completion before the next event. In the source, overlapping repaints on the same data object can interleave their stores and draws; this is not modelled.
- Preview.OnVariantChange: this is the corrected rule, used by the rest of the model. The listener as written, including its `TypeError` when the old variant has no template, is `Preview.OnVariantChangeAsWritten`.
- CodeImage.Processed: states only the shape of the image; its pixels are stated by `CodeImage.ProcessedPixels`.

## Findings

| source | as written | input that shows it | evidently intended | confidence | as-written member | corrected member |
|---|---|---|---|---|---|---|
| assets/spoties-fields.js:465-469 | repaint only when `!old_preview.variants.includes(current_variant)` | templates a (variants ["2"]) and b (variants ["1","2"]); the variant changes from "1" to "2": b lists "2", so no repaint, yet the preview now selects a | repaint whenever the newly selected template differs from the old one | not executed | Preview.OnVariantChangeAsWritten, exhibited by Preview.AsWrittenTransitionKeepsStalePicture | Preview.OnVariantChange, proved by Preview.SkippedRepaintIsCurrent |

=== FILE: bitmap.dfy ===
/**
 RGBA bitmaps as the 2D canvas exposes them through `getImageData`: a flat
 buffer of 4 bytes per pixel, row by row. Two pixel operations of the
 code-image helpers live here: exact-match colour substitution
 (`replaceColorInImage`) and the fixed 54px padding crop of `getSpotifyCode`.
 */
module Bitmap {
  import opened Wrappers
  import opened Color

  /** The replacement colour. `a` is `None` when the object has no `a`
      property, in which case each replaced pixel keeps its own alpha. */
  datatype Rgba = Rgba(r: Byte, g: Byte, b: Byte, a: Option<Byte>)

  /** A decoded image and its pixel buffer. */
  datatype Image = Image(width: nat, height: nat, data: seq<Byte>)

  ghost predicate Valid(img: Image)
  {
    |img.data| == 4 * (img.width * img.height)
  }

  // ---------------------------------------------------------------------
  // Exact-match colour substitution

  /** Pixel `p` of the buffer has exactly the RGB channels of `c` (alpha is ignored). */
  predicate Matches(pix: seq<Byte>, p: nat, c: Rgb)
    requires 4 * p + 3 < |pix|
  {
    pix[4 * p] == c.r && pix[4 * p + 1] == c.g && pix[4 * p + 2] == c.b
  }

  /** What substitution does to one pixel: a pixel matching `oldColor` gets the
      RGB of `newColor`, and its alpha becomes `newColor.a` when that is given and
      stays otherwise; every other pixel keeps its four bytes. */
  ghost predicate PixelReplaced(pix: seq<Byte>, out: seq<Byte>, p: nat, oldColor: Rgb, newColor: Rgba)
    requires |out| == |pix| && 4 * p + 3 < |pix|
  {
    if Matches(pix, p, oldColor) then
      && out[4 * p] == newColor.r && out[4 * p + 1] == newColor.g && out[4 * p + 2] == newColor.b
      && out[4 * p + 3] == (if newColor.a.Some? then newColor.a.value else pix[4 * p + 3])
    else
      && out[4 * p] == pix[4 * p] && out[4 * p + 1] == pix[4 * p + 1]
      && out[4 * p + 2] == pix[4 * p + 2] && out[4 * p + 3] == pix[4 * p + 3]
  }

  ghost predicate AllPixelsReplaced(pix: seq<Byte>, out: seq<Byte>, oldColor: Rgb, newColor: Rgba)
    requires |pix| % 4 == 0
  {
    && |out| == |pix|
    && forall p :: 0 <= p < |pix| / 4 ==> PixelReplaced(pix, out, p, oldColor, newColor)
  }

  /** The byte at index `k` after substitution, as a reference definition. */
  function SubstitutedByte(pix: seq<Byte>, k: nat, oldColor: Rgb, newColor: Rgba): Byte
    requires |pix| % 4 == 0 && k < |pix|
  {
    var base := k - k % 4;
    if pix[base] == oldColor.r && pix[base + 1] == oldColor.g && pix[base + 2] == oldColor.b then
      match k % 4
      case 0 => newColor.r
      case 1 => newColor.g
      case 2 => newColor.b
      case _ => if newColor.a.Some? then newColor.a.value else pix[k]
    else pix[k]
  }

  lemma SubstitutedPixel(pix: seq<Byte>, p: nat, oldColor: Rgb, newColor: Rgba)
    requires |pix| % 4 == 0 && p < |pix| / 4
    ensures 4 * p + 3 < |pix|
    ensures var out := seq(|pix|, k requires 0 <= k < |pix| => SubstitutedByte(pix, k, oldColor, newColor));
            PixelReplaced(pix, out, p, oldColor, newColor)
  {
    assert (4 * p) % 4 == 0 && (4 * p + 1) % 4 == 1 && (4 * p + 2) % 4 == 2 && (4 * p + 3) % 4 == 3;
    assert SubstitutedByte(pix, 4 * p, oldColor, newColor) == (if Matches(pix, p, oldColor) then newColor.r else pix[4 * p]);
    assert SubstitutedByte(pix, 4 * p + 1, oldColor, newColor) == (if Matches(pix, p, oldColor) then newColor.g else pix[4 * p + 1]);
    assert SubstitutedByte(pix, 4 * p + 2, oldColor, newColor) == (if Matches(pix, p, oldColor) then newColor.b else pix[4 * p + 2]);
  }

  /** The whole buffer after substitution, byte by byte. */
  function ReplaceColor(pix: seq<Byte>, oldColor: Rgb, newColor: Rgba): (out: seq<Byte>)
    requires |pix| % 4 == 0
    ensures AllPixelsReplaced(pix, out, oldColor, newColor)
  {
    var out := seq(|pix|, k requires 0 <= k < |pix| => SubstitutedByte(pix, k, oldColor, newColor));
    forall p | 0 <= p < |pix| / 4
      ensures PixelReplaced(pix, out, p, oldColor, newColor)
    {
      SubstitutedPixel(pix, p, oldColor, newColor);
    }
    out
  }

  /** Two buffers that both satisfy the per-pixel description are equal:
      the description determines the result. */
  lemma ReplacedIsUnique(pix: seq<Byte>, out1: seq<Byte>, out2: seq<Byte>, oldColor: Rgb, newColor: Rgba)
    requires |pix| % 4 == 0
    requires AllPixelsReplaced(pix, out1, oldColor, newColor) && AllPixelsReplaced(pix, out2, oldColor, newColor)
    ensures out1 == out2
  {
    forall k | 0 <= k < |pix|
      ensures out1[k] == out2[k]
    {
      var p := k / 4;
      assert PixelReplaced(pix, out1, p, oldColor, newColor) && PixelReplaced(pix, out2, p, oldColor, newColor);
      assert k == 4 * p + k % 4;
    }
  }

  /** `replaceColorInImage`'s loop over the pixel buffer, four bytes at a time. */
  method ReplaceColorInImage(pix: seq<Byte>, oldColor: Rgb, newColor: Rgba) returns (out: seq<Byte>)
    requires |pix| % 4 == 0
    ensures AllPixelsReplaced(pix, out, oldColor, newColor)
    ensures out == ReplaceColor(pix, oldColor, newColor)
  {
    out := pix;
    var i := 0;
    while i < |pix|
      invariant 0 <= i <= |pix| && i % 4 == 0
      invariant |out| == |pix|
      invariant forall p :: 0 <= p < i / 4 ==> PixelReplaced(pix, out, p, oldColor, newColor)
      invariant forall k :: i <= k < |pix| ==> out[k] == pix[k]
    {
      ghost var prev := out;
      var r, g, b := out[i], out[i + 1], out[i + 2];
      if r == oldColor.r && g == oldColor.g && b == oldColor.b {
        var a := if newColor.a.Some? then newColor.a.value else out[i + 3];
        out := out[i := newColor.r][i + 1 := newColor.g][i + 2 := newColor.b][i + 3 := a];
      }
      assert i / 4 * 4 == i;
      assert PixelReplaced(pix, out, i / 4, oldColor, newColor);
      forall p | 0 <= p < i / 4
        ensures PixelReplaced(pix, out, p, oldColor, newColor)
      {
        assert PixelReplaced(pix, prev, p, oldColor, newColor);
        assert out[4 * p..4 * p + 4] == prev[4 * p..4 * p + 4];
      }
      i := i + 4;
    }
    ReplacedIsUnique(pix, out, ReplaceColor(pix, oldColor, newColor), oldColor, newColor);
  }

  /** After substituting `oldColor` by a colour with different RGB, no pixel of
      the colour `oldColor` is left: background removal is complete. */
  lemma NoMatchRemains(pix: seq<Byte>, oldColor: Rgb, newColor: Rgba)
    requires |pix| % 4 == 0
    requires Rgb(newColor.r, newColor.g, newColor.b) != oldColor
    ensures forall p :: 0 <= p < |pix| / 4 ==> !Matches(ReplaceColor(pix, oldColor, newColor), p, oldColor)
  {
    var out := ReplaceColor(pix, oldColor, newColor);
    forall p | 0 <= p < |pix| / 4
      ensures !Matches(out, p, oldColor)
    {
      assert PixelReplaced(pix, out, p, oldColor, newColor);
    }
  }

  /** Substituting twice is substituting once. */
  lemma ReplaceColorIdempotent(pix: seq<Byte>, oldColor: Rgb, newColor: Rgba)
    requires |pix| % 4 == 0
    ensures ReplaceColor(ReplaceColor(pix, oldColor, newColor), oldColor, newColor) == ReplaceColor(pix, oldColor, newColor)
  {
    var once := ReplaceColor(pix, oldColor, newColor);
    var twice := ReplaceColor(once, oldColor, newColor);
    forall p | 0 <= p < |pix| / 4
      ensures PixelReplaced(pix, twice, p, oldColor, newColor)
    {
      assert PixelReplaced(pix, once, p, oldColor, newColor);
      assert PixelReplaced(once, twice, p, oldColor, newColor);
    }
    ReplacedIsUnique(pix, twice, once, oldColor, newColor);
  }

  // ---------------------------------------------------------------------
  // Padding crop

  /** The border the code-image service draws around every code. */
  const Padding: int := 54

  datatype Rect = Rect(x: int, y: int, w: int, h: int)

  /** The canvas geometry of the padding crop: the size given to the new
      canvas, the rectangle read from the fetched image and the rectangle
      written on the canvas. */
  datatype CropGeometry = CropGeometry(canvasWidth: int, canvasHeight: int, source: Rect, target: Rect)

  /** The `drawImage` call of `getSpotifyCode` for an image of `w` by `h`. */
  function PaddingCrop(w: int, h: int): (g: CropGeometry)
    // the source rectangle leaves the same margin on all four sides ...
    ensures g.source.x == Padding && g.source.y == Padding
    ensures w - (g.source.x + g.source.w) == Padding && h - (g.source.y + g.source.h) == Padding
    // ... and is copied unscaled onto the whole canvas
    ensures g.target == Rect(0, 0, g.canvasWidth, g.canvasHeight)
    ensures g.source.w == g.target.w && g.source.h == g.target.h
  {
    var cw := w - Padding * 2;
    var ch := h - Padding * 2;
    CropGeometry(cw, ch, Rect(Padding, Padding, cw, ch), Rect(0, 0, cw, ch))
  }

  lemma RowMajorBound(w: nat, h: nat, x: nat, y: nat)
    requires x < w && y < h
    ensures y * w + x < w * h
  {
    assert y * w + x < (y + 1) * w;
    assert (y + 1) * w <= h * w;
  }

  lemma RowMajorDivMod(w: nat, x: nat, y: nat)
    requires x < w
    ensures (y * w + x) / w == y && (y * w + x) % w == x
  {
    var q, r := (y * w + x) / w, (y * w + x) % w;
    assert q * w + r == y * w + x;
    assert (q - y) * w == x - r;
    DivUnique(q - y, w, x - r);
  }

  lemma DivUnique(d: int, w: int, e: int)
    requires w > 0 && -w < e < w && d * w == e
    ensures d == 0 && e == 0
  {
  }

  lemma MulNat(a: nat, b: nat)
    ensures a * b >= 0
  {
  }

  lemma MulPositiveFactors(a: nat, b: nat)
    requires a * b > 0
    ensures a > 0 && b > 0
  {
  }

  lemma DivLess(p: nat, a: nat, b: nat)
    requires a > 0 && p < a * b
    ensures p / a < b
  {
  }

  /** Channel `c` of pixel `(x, y)`. */
  function At(img: Image, x: nat, y: nat, c: nat): Byte
    requires Valid(img) && x < img.width && y < img.height && c < 4
  {
    RowMajorBound(img.width, img.height, x, y);
    img.data[4 * (y * img.width + x) + c]
  }

  /** Where byte `i` of the cropped buffer is read from in the source buffer. */
  function CropSourceIndex(img: Image, i: nat): (k: nat)
    requires Valid(img) && img.width >= 2 * Padding && img.height >= 2 * Padding
    requires i < 4 * ((img.width - 2 * Padding) * (img.height - 2 * Padding))
    ensures k < |img.data|
  {
    var cw: nat := img.width - 2 * Padding;
    var ch: nat := img.height - 2 * Padding;
    var n := cw * ch;
    DivLess(i, 4, n);
    var p := i / 4;
    MulPositiveFactors(cw, ch);
    var x := p % cw;
    var y := p / cw;
    DivLess(p, cw, ch);
    RowMajorBound(img.width, img.height, x + Padding, y + Padding);
    MulNat(y + Padding, img.width);
    var q := (y + Padding) * img.width + (x + Padding);
    QuadBound(q, img.width * img.height, i % 4);
    4 * q + i % 4
  }

  /** The cropped pixel buffer, byte by byte. */
  function CropData(img: Image): (data: seq<Byte>)
    requires Valid(img) && img.width >= 2 * Padding && img.height >= 2 * Padding
    ensures |data| == 4 * ((img.width - 2 * Padding) * (img.height - 2 * Padding))
  {
    var cw: nat := img.width - 2 * Padding;
    var ch: nat := img.height - 2 * Padding;
    MulNat(cw, ch);
    var n := 4 * (cw * ch);
    seq(n, (i: nat) requires i < n => img.data[CropSourceIndex(img, i)])
  }

  lemma CropDataAt(img: Image, x: nat, y: nat, c: nat)
    requires Valid(img) && img.width >= 2 * Padding && img.height >= 2 * Padding
    requires x < img.width - 2 * Padding && y < img.height - 2 * Padding && c < 4
    ensures 4 * (y * (img.width - 2 * Padding) + x) + c < |CropData(img)|
    ensures CropData(img)[4 * (y * (img.width - 2 * Padding) + x) + c] == At(img, x + Padding, y + Padding, c)
  {
    var cw: nat := img.width - 2 * Padding;
    var ch: nat := img.height - 2 * Padding;
    RowMajorBound(cw, ch, x, y);
    var p := y * cw + x;
    var i := 4 * p + c;
    QuadIndex(p, c);
    RowMajorDivMod(cw, x, y);
    assert i < |CropData(img)|;
    assert CropData(img)[i] == img.data[CropSourceIndex(img, i)];
    assert CropSourceIndex(img, i) == 4 * ((y + Padding) * img.width + (x + Padding)) + c;
  }

  lemma QuadBound(q: nat, n: nat, c: nat)
    requires q < n && c < 4
    ensures 4 * q + c < 4 * n
  {
  }

  lemma QuadIndex(p: nat, c: nat)
    requires c < 4
    ensures (4 * p + c) / 4 == p && (4 * p + c) % 4 == c
  {
  }

  /** The padding crop applied to the pixels: the result is the image with
      a 54px border cut from each side, every remaining pixel unchanged. */
  function CropPadding(img: Image): (out: Image)
    requires Valid(img) && img.width >= 2 * Padding && img.height >= 2 * Padding
    ensures Valid(out)
    ensures out.width == PaddingCrop(img.width, img.height).canvasWidth
    ensures out.height == PaddingCrop(img.width, img.height).canvasHeight
    ensures forall x, y, c :: 0 <= x < out.width && 0 <= y < out.height && 0 <= c < 4 ==>
              At(out, x, y, c) == At(img, x + Padding, y + Padding, c)
  {
    var cw: nat := img.width - 2 * Padding;
    var ch: nat := img.height - 2 * Padding;
    var out := Image(cw, ch, CropData(img));
    forall x, y, c | 0 <= x < cw && 0 <= y < ch && 0 <= c < 4
      ensures At(out, x, y, c) == At(img, x + Padding, y + Padding, c)
    {
      CropDataAt(img, x, y, c);
    }
    out
  }
}

=== FILE: blob.dfy ===
/**
 `base64toBlob`: the decoded characters of a data URL are copied into
 `Uint8Array` slices of at most 1024 bytes, which become the parts of a
 `Blob`. Base64 decoding itself (`atob`) is a browser primitive; the model
 starts from the string it returns.
 */
module Blob {
  import opened Color
  import opened JsValues

  /** `sliceSize` of `base64toBlob`. */
  const SliceSize: nat := 1024

  /** A `Blob`: its parts in order and its `type` option. */
  datatype Blob = Blob(parts: seq<seq<Byte>>, contentType: JsValue)

  /** The byte a `Uint8Array` stores for `c.charCodeAt(0)`: the code modulo
      256 (`atob` only produces codes below 256, for which this is the code). */
  function CharCode(c: char): Byte
  {
    (c as int) % 256
  }

  function Codes(s: string): (r: seq<Byte>)
    ensures |r| == |s|
    ensures forall i :: 0 <= i < |s| ==> r[i] == CharCode(s[i])
  {
    seq(|s|, i requires 0 <= i < |s| => CharCode(s[i]))
  }

  function Min(a: int, b: int): int
  {
    if a < b then a else b
  }

  /** The parts of a blob, concatenated. */
  function Flatten(parts: seq<seq<Byte>>): seq<Byte>
  {
    if parts == [] then [] else Flatten(parts[..|parts| - 1]) + parts[|parts| - 1]
  }

  lemma CodesSplit(s: string, a: nat, b: nat)
    requires a <= b <= |s|
    ensures Codes(s[..a]) + Codes(s[a..b]) == Codes(s[..b])
  {
  }

  /** The first `k` parts are the slices of `s` the function builds. */
  predicate SlicesUpTo(s: string, parts: seq<seq<Byte>>, k: nat)
  {
    && |parts| == k
    && (forall i :: 0 <= i < k ==>
          && SliceSize * i < |s|
          && 0 < |parts[i]| <= SliceSize
          && parts[i] == Codes(s[SliceSize * i..Min(SliceSize * (i + 1), |s|)]))
    && Flatten(parts) == Codes(s[..Min(SliceSize * k, |s|)])
  }

  /** Appending the next slice keeps `SlicesUpTo`. */
  lemma SliceStep(s: string, parts: seq<seq<Byte>>, k: nat, bytes: seq<Byte>)
    requires SlicesUpTo(s, parts, k)
    requires k < (|s| + SliceSize - 1) / SliceSize
    requires bytes == Codes(s[SliceSize * k..Min(SliceSize * k + SliceSize, |s|)])
    ensures SlicesUpTo(s, parts + [bytes], k + 1)
  {
    assert SliceSize * k < |s|;
    CodesSplit(s, SliceSize * k, Min(SliceSize * k + SliceSize, |s|));
    assert (parts + [bytes])[..k] == parts;
  }

  /** `base64toBlob(base64Data, contentType)` after `atob`: the blob has
      ceil(n / 1024) parts, part `i` holds the codes of characters
      `[1024 i, min(1024 (i + 1), n))`, and the parts together hold every
      character code in order. */
  method Base64ToBlob(byteCharacters: string, contentType: JsValue) returns (blob: Blob)
    ensures blob.contentType == Or(contentType, Str(""))
    ensures |blob.parts| == (|byteCharacters| + SliceSize - 1) / SliceSize
    ensures forall i :: 0 <= i < |blob.parts| ==>
              && 0 < |blob.parts[i]| <= SliceSize
              && blob.parts[i] == Codes(byteCharacters[SliceSize * i..Min(SliceSize * (i + 1), |byteCharacters|)])
    ensures Flatten(blob.parts) == Codes(byteCharacters)
  {
    var n := |byteCharacters|;
    var slicesCount := (n + SliceSize - 1) / SliceSize;
    var byteArrays: seq<seq<Byte>> := [];
    var sliceIndex := 0;
    while sliceIndex < slicesCount
      invariant 0 <= sliceIndex <= slicesCount
      invariant SlicesUpTo(byteCharacters, byteArrays, sliceIndex)
    {
      var begin := sliceIndex * SliceSize;
      var end := Min(begin + SliceSize, n);
      var bytes: seq<Byte> := [];
      var offset := begin;
      while offset < end
        invariant begin <= offset <= end
        invariant bytes == Codes(byteCharacters[begin..offset])
      {
        bytes := bytes + [CharCode(byteCharacters[offset])];
        offset := offset + 1;
      }
      SliceStep(byteCharacters, byteArrays, sliceIndex, bytes);
      byteArrays := byteArrays + [bytes];
      sliceIndex := sliceIndex + 1;
    }
    assert Min(SliceSize * slicesCount, n) == n;
    assert byteCharacters[..n] == byteCharacters;
    blob := Blob(byteArrays, Or(contentType, Str("")));
  }
}

=== FILE: code_image.dfy ===
/**
 `getSpotifyCode`: choose the background colour the code is fetched on,
 build the URL of the code-image service, then optionally cut the 54px
 padding and turn the fetched background transparent by exact-match
 substitution. The network fetch and the PNG round trips through
 `toDataURL`/`loadImage` are outside the model: the fetched bitmap is a
 parameter and encoding is taken to be lossless.
 */
module CodeImage {
  import opened Wrappers
  import opened Color
  import opened Bitmap
  import JsStrings

  /** The fixed prefix of every code-image URL. */
  const Endpoint: string := "https://scannables.scdn.co/uri/plain/png/"

  /** Defaults of the optional parameters of `getSpotifyCode`. */
  const DefaultColor: string := "black"
  const DefaultBackground: string := "ffffff"
  const DefaultWidth: int := 1080

  /** Decoy backgrounds: one step away from black and from white. */
  const NearBlack: string := "000001"
  const NearWhite: string := "fffffe"

  /** The background the code is requested on. With background removal the
      service is asked for a decoy colour: `000001` for a black code and
      `fffffe` for any other colour; otherwise the caller's background. */
  function FetchBackground(removeBackground: bool, color: string, backgroundColor: string): (bg: string)
    ensures removeBackground ==> (bg == NearBlack <==> color == "black")
    ensures removeBackground ==> (bg == NearWhite <==> color != "black")
    ensures !removeBackground ==> bg == backgroundColor
  {
    if removeBackground then (if color == "black" then NearBlack else NearWhite) else backgroundColor
  }

  /** `code_url`: the endpoint followed by background, colour, width and URI. */
  function CodeUrl(bg: string, color: string, width: int, uri: string): string
  {
    Endpoint + bg + "/" + color + "/" + JsStrings.IntToString(width) + "/" + uri
  }

  /** The RGB of the decoy background for a code of colour `color`. */
  function DecoyColor(color: string): Rgb
  {
    if color == "black" then Rgb(0, 0, 1) else Rgb(255, 255, 254)
  }

  /** The colour `hexToRgb` gives for the fetch background under background
      removal: it always parses, so the substitution never receives `null`. */
  lemma DecoyParses(color: string, backgroundColor: string)
    ensures HexToRgb("#" + FetchBackground(true, color, backgroundColor)) == Some(DecoyColor(color))
  {
    var bg := FetchBackground(true, color, backgroundColor);
    var s := "#" + bg;
    assert s[1..] == bg;
    assert IsHexColor(s);
  }

  /** The RGB the service draws a black or white code in. */
  function Foreground(color: string): Rgb
    requires color == "black" || color == "white"
  {
    if color == "black" then Rgb(0, 0, 0) else Rgb(255, 255, 255)
  }

  /** The decoy never equals the code's own colour, so removing it leaves
      the code itself untouched. */
  lemma DecoyDiffersFromForeground(color: string, backgroundColor: string)
    requires color == "black" || color == "white"
    ensures HexToRgb("#" + FetchBackground(true, color, backgroundColor)).value != Foreground(color)
  {
    DecoyParses(color, backgroundColor);
  }

  predicate NoSlashIn(s: string)
  {
    forall i :: 0 <= i < |s| ==> s[i] != '/'
  }

  /** Splitting at the first `/` recovers the segment before it. */
  lemma SplitAtSlash(a: string, x: string, b: string, y: string)
    requires NoSlashIn(a) && NoSlashIn(b)
    requires a + "/" + x == b + "/" + y
    ensures a == b && x == y
  {
    var s := a + "/" + x;
    assert forall i :: 0 <= i < |a| ==> s[i] == a[i];
    assert s[|a|] == '/';
    assert forall i :: 0 <= i < |b| ==> s[i] == b[i];
    assert s[|b|] == '/';
    assert |a| == |b|;
    assert a == (a + "/" + x)[..|a|];
    assert b == (b + "/" + y)[..|b|];
    assert x == (a + "/" + x)[|a| + 1..];
    assert y == (b + "/" + y)[|b| + 1..];
  }

  lemma IntToStringNoSlash(n: int)
    ensures NoSlashIn(JsStrings.IntToString(n))
  {
  }

  lemma Assoc(a: string, b: string, c: string)
    ensures a + b + c == a + (b + c)
  {
  }

  lemma CodeUrlShape(bg: string, color: string, width: int, uri: string)
    ensures CodeUrl(bg, color, width, uri) ==
            Endpoint + (bg + "/" + (color + "/" + (JsStrings.IntToString(width) + "/" + uri)))
  {
    var w := JsStrings.IntToString(width);
    var e := Endpoint;
    Assoc(e + bg + "/" + color + "/" + w, "/", uri);
    Assoc(e + bg + "/" + color + "/", w, "/" + uri);
    Assoc(e + bg + "/" + color, "/", w + "/" + uri);
    Assoc(e + bg + "/", color, "/" + (w + "/" + uri));
    Assoc(e + bg, "/", color + "/" + (w + "/" + uri));
    Assoc(e, bg, "/" + (color + "/" + (w + "/" + uri)));
  }

  /** The URL determines what is requested: background, colour, width and
      URI can be read back from it (colours never contain `/`). */
  lemma CodeUrlInjective(bg1: string, color1: string, width1: int, uri1: string,
                         bg2: string, color2: string, width2: int, uri2: string)
    requires NoSlashIn(bg1) && NoSlashIn(color1) && NoSlashIn(bg2) && NoSlashIn(color2)
    requires CodeUrl(bg1, color1, width1, uri1) == CodeUrl(bg2, color2, width2, uri2)
    ensures bg1 == bg2 && color1 == color2 && width1 == width2 && uri1 == uri2
  {
    var w1, w2 := JsStrings.IntToString(width1), JsStrings.IntToString(width2);
    IntToStringNoSlash(width1);
    IntToStringNoSlash(width2);
    var url := CodeUrl(bg1, color1, width1, uri1);
    CodeUrlShape(bg1, color1, width1, uri1);
    CodeUrlShape(bg2, color2, width2, uri2);
    var tail1 := bg1 + "/" + (color1 + "/" + (w1 + "/" + uri1));
    var tail2 := bg2 + "/" + (color2 + "/" + (w2 + "/" + uri2));
    assert tail1 == url[|Endpoint|..] == tail2;
    SplitAtSlash(bg1, color1 + "/" + (w1 + "/" + uri1), bg2, color2 + "/" + (w2 + "/" + uri2));
    SplitAtSlash(color1, w1 + "/" + uri1, color2, w2 + "/" + uri2);
    SplitAtSlash(w1, uri1, w2, uri2);
    JsStrings.ParseIntOfIntToString(width1);
    JsStrings.ParseIntOfIntToString(width2);
  }

  /** What `getSpotifyCode` resolves to: the URL it fetched and the image
      its data URL encodes. `None` when padding removal leaves an empty
      canvas: its `toDataURL()` is `"data:,"`, which decodes to no image
      (with background removal the `loadImage` of that URL rejects). */
  datatype CodeResult = CodeResult(url: string, image: Option<Image>)

  /** Padding removal on an image with an edge of exactly 108px gives a
      canvas with no pixels. */
  predicate EmptyCrop(fetched: Image, removePadding: bool)
  {
    removePadding && (fetched.width == 2 * Padding || fetched.height == 2 * Padding)
  }

  /** The pixel (0,0,0,0) the decoy background is replaced with. */
  const Transparent: Rgba := Rgba(0, 0, 0, Some(0))

  /** The image after the optional padding crop. */
  function Cropped(fetched: Image, removePadding: bool): (img: Image)
    requires Valid(fetched)
    requires removePadding ==> fetched.width >= 2 * Padding && fetched.height >= 2 * Padding
    ensures Valid(img) && |img.data| % 4 == 0
    ensures img.width == if removePadding then fetched.width - 2 * Padding else fetched.width
    ensures img.height == if removePadding then fetched.height - 2 * Padding else fetched.height
    ensures !removePadding ==> img == fetched
    ensures removePadding ==> ShiftedCopy(fetched, img, Padding)
  {
    var img := if removePadding then CropPadding(fetched) else fetched;
    assert |img.data| == 4 * (img.width * img.height);
    img
  }

  /** The image pipeline of `getSpotifyCode` after the fetch: the optional
      padding crop, then, when a decoy colour is given, substitution of
      that colour by (0,0,0,0). */
  function Processed(fetched: Image, removePadding: bool, decoy: Option<Rgb>): (img: Image)
    requires Valid(fetched)
    requires removePadding ==> fetched.width >= 2 * Padding && fetched.height >= 2 * Padding
    ensures Valid(img)
    ensures img.width == if removePadding then fetched.width - 2 * Padding else fetched.width
    ensures img.height == if removePadding then fetched.height - 2 * Padding else fetched.height
  {
    var cropped := Cropped(fetched, removePadding);
    if decoy.Some? then Image(cropped.width, cropped.height, ReplaceColor(cropped.data, decoy.value, Transparent))
    else cropped
  }

  /** `getSpotifyCode(uri, removeBackground, removePadding, color,
      backgroundColor, width)`, given the bitmap the service returns for
      the URL: the URL it requests, and the image it resolves to, which is
      the fetched one with the decoy colour removed exactly when the
      background is, or none when the crop leaves no pixels. */
  function GetSpotifyCode(uri: string, removeBackground: bool, removePadding: bool,
                          color: string, backgroundColor: string, width: int,
                          fetched: Image): (r: CodeResult)
    requires Valid(fetched)
    requires removePadding ==> fetched.width >= 2 * Padding && fetched.height >= 2 * Padding
    ensures r.url == CodeUrl(FetchBackground(removeBackground, color, backgroundColor), color, width, uri)
    ensures r.image.None? <==> EmptyCrop(fetched, removePadding)
    ensures r.image.Some? ==>
              r.image.value == Processed(fetched, removePadding, if removeBackground then Some(DecoyColor(color)) else None)
  {
    var bg := FetchBackground(removeBackground, color, backgroundColor);
    var url := CodeUrl(bg, color, width, uri);
    if EmptyCrop(fetched, removePadding) then
      CodeResult(url, None)
    else if removeBackground then
      DecoyParses(color, backgroundColor);
      CodeResult(url, Some(Processed(fetched, removePadding, Some(HexToRgb("#" + bg).value))))
    else
      CodeResult(url, Some(Processed(fetched, removePadding, None)))
  }

  /** `img` is `src` with `off` pixels cut from its top-left corner. */
  ghost predicate ShiftedCopy(src: Image, img: Image, off: nat)
    requires Valid(src) && Valid(img)
  {
    && img.width + off <= src.width && img.height + off <= src.height
    && forall x, y, c :: 0 <= x < img.width && 0 <= y < img.height && 0 <= c < 4 ==>
         At(img, x, y, c) == At(src, x + off, y + off, c)
  }

  /** Pixel `(x, y)` has exactly the RGB channels of `rgb`. */
  ghost predicate HasRgb(img: Image, x: nat, y: nat, rgb: Rgb)
    requires Valid(img) && x < img.width && y < img.height
  {
    At(img, x, y, 0) == rgb.r && At(img, x, y, 1) == rgb.g && At(img, x, y, 2) == rgb.b
  }

  /** The pixels `getSpotifyCode` returns: every pixel is the fetched pixel
      shifted by the cut padding, except that pixels of the decoy colour
      become (0,0,0,0) when a decoy is given (under background removal). */
  lemma ProcessedPixels(fetched: Image, removePadding: bool, decoy: Option<Rgb>)
    requires Valid(fetched)
    requires removePadding ==> fetched.width >= 2 * Padding && fetched.height >= 2 * Padding
    ensures var img := Processed(fetched, removePadding, decoy);
            var off := if removePadding then Padding else 0;
            forall x, y, c :: 0 <= x < img.width && 0 <= y < img.height && 0 <= c < 4 ==>
              At(img, x, y, c) ==
                if decoy.Some? && HasRgb(fetched, x + off, y + off, decoy.value)
                then 0
                else At(fetched, x + off, y + off, c)
  {
    var img := Processed(fetched, removePadding, decoy);
    forall x, y, c | 0 <= x < img.width && 0 <= y < img.height && 0 <= c < 4 {
      ProcessedPixel(fetched, removePadding, decoy, x, y, c);
    }
  }

  /** One pixel of `Processed`. */
  lemma ProcessedPixel(fetched: Image, removePadding: bool, decoy: Option<Rgb>, x: nat, y: nat, c: nat)
    requires Valid(fetched)
    requires removePadding ==> fetched.width >= 2 * Padding && fetched.height >= 2 * Padding
    requires var img := Processed(fetched, removePadding, decoy);
             x < img.width && y < img.height && c < 4
    ensures var off := if removePadding then Padding else 0;
            At(Processed(fetched, removePadding, decoy), x, y, c) ==
              if decoy.Some? && HasRgb(fetched, x + off, y + off, decoy.value)
              then 0
              else At(fetched, x + off, y + off, c)
  {
    var img := Processed(fetched, removePadding, decoy);
    var off := if removePadding then Padding else 0;
    var cropped := Cropped(fetched, removePadding);
    forall k | 0 <= k < 4
      ensures At(cropped, x, y, k) == At(fetched, x + off, y + off, k)
    {
      if removePadding {
        assert At(cropped, x, y, k) == At(fetched, x + Padding, y + Padding, k);
      }
    }
    if decoy.Some? {
      ReplacedPixelAt(cropped, img, decoy.value, Transparent, x, y);
    }
  }

  /** What substitution does to pixel `(x, y)`, in pixel coordinates. */
  lemma ReplacedPixelAt(img: Image, out: Image, oldColor: Rgb, newColor: Rgba, x: nat, y: nat)
    requires Valid(img) && |img.data| % 4 == 0 && x < img.width && y < img.height
    requires out == Image(img.width, img.height, ReplaceColor(img.data, oldColor, newColor))
    ensures Valid(out)
    ensures var hit := At(img, x, y, 0) == oldColor.r && At(img, x, y, 1) == oldColor.g
                       && At(img, x, y, 2) == oldColor.b;
            && At(out, x, y, 0) == (if hit then newColor.r else At(img, x, y, 0))
            && At(out, x, y, 1) == (if hit then newColor.g else At(img, x, y, 1))
            && At(out, x, y, 2) == (if hit then newColor.b else At(img, x, y, 2))
            && At(out, x, y, 3) == (if hit && newColor.a.Some? then newColor.a.value else At(img, x, y, 3))
  {
    var p := y * img.width + x;
    RowMajorBound(img.width, img.height, x, y);
    QuadBound(p, img.width * img.height, 3);
    assert PixelReplaced(img.data, out.data, p, oldColor, newColor);
    assert At(img, x, y, 0) == img.data[4 * p] && At(out, x, y, 0) == out.data[4 * p];
    assert At(img, x, y, 1) == img.data[4 * p + 1] && At(out, x, y, 1) == out.data[4 * p + 1];
    assert At(img, x, y, 2) == img.data[4 * p + 2] && At(out, x, y, 2) == out.data[4 * p + 2];
    assert At(img, x, y, 3) == img.data[4 * p + 3] && At(out, x, y, 3) == out.data[4 * p + 3];
  }

  /** With background removal, no pixel of the decoy colour is left in the
      returned image: the background is gone entirely. */
  lemma BackgroundRemoved(uri: string, removePadding: bool, color: string, backgroundColor: string,
                          width: int, fetched: Image)
    requires Valid(fetched)
    requires removePadding ==> fetched.width >= 2 * Padding && fetched.height >= 2 * Padding
    ensures var r := GetSpotifyCode(uri, true, removePadding, color, backgroundColor, width, fetched);
            var decoy := HexToRgb("#" + FetchBackground(true, color, backgroundColor)).value;
            r.image.Some? ==>
              |r.image.value.data| % 4 == 0 &&
              forall p :: 0 <= p < |r.image.value.data| / 4 ==> !Matches(r.image.value.data, p, decoy)
  {
    var bg := FetchBackground(true, color, backgroundColor);
    DecoyParses(color, backgroundColor);
    var decoy := HexToRgb("#" + bg).value;
    NoMatchRemains(Cropped(fetched, removePadding).data, decoy, Transparent);
  }
}

=== FILE: color.dfy ===
/**
 Colours as the code-image helpers use them: `hexToRgb` parses an optional
 `#` followed by six hexadecimal digits (either case) into three 8-bit
 channels, and `null` (here `None`) for anything else.
 */
module Color {
  import opened Wrappers

  /** One 8-bit channel of a pixel. */
  type Byte = x: int | 0 <= x < 256

  datatype Rgb = Rgb(r: Byte, g: Byte, b: Byte)

  predicate IsHexDigit(c: char)
  {
    ('0' <= c <= '9') || ('a' <= c <= 'f') || ('A' <= c <= 'F')
  }

  function HexDigitValue(c: char): (v: nat)
    requires IsHexDigit(c)
    ensures v < 16
  {
    if '0' <= c <= '9' then (c as int) - ('0' as int)
    else if 'a' <= c <= 'f' then (c as int) - ('a' as int) + 10
    else (c as int) - ('A' as int) + 10
  }

  /** The lower-case hexadecimal digit of a value below 16. */
  function LowerHexDigit(v: nat): (c: char)
    requires v < 16
    ensures IsHexDigit(c) && HexDigitValue(c) == v
    ensures !('A' <= c <= 'F')
  {
    "0123456789abcdef"[v]
  }

  predicate AllHexDigits(s: string)
  {
    forall i :: 0 <= i < |s| ==> IsHexDigit(s[i])
  }

  /** What the pattern `^#?([a-f\d]{2}){3}$` with the `i` flag accepts:
      six hex digits, optionally preceded by one `#`, and nothing else. */
  predicate IsHexColor(s: string)
  {
    || (|s| == 6 && AllHexDigits(s))
    || (|s| == 7 && s[0] == '#' && AllHexDigits(s[1..]))
  }

  /** The six digits of an accepted colour (the `#` dropped). */
  function Digits(s: string): (d: string)
    requires IsHexColor(s)
    ensures |d| == 6 && AllHexDigits(d)
  {
    if |s| == 7 then s[1..] else s
  }

  /** `parseInt(pair, 16)` for a two-digit pair. */
  function PairValue(hi: char, lo: char): (v: Byte)
    requires IsHexDigit(hi) && IsHexDigit(lo)
  {
    HexDigitValue(hi) * 16 + HexDigitValue(lo)
  }

  /** `hexToRgb(hex)`: the three channels when `hex` is an accepted colour,
      `None` otherwise. Each channel is the value of its digit pair. */
  function HexToRgb(s: string): (r: Option<Rgb>)
    ensures r.Some? <==> IsHexColor(s)
    ensures r.Some? ==>
      var d := Digits(s);
      && r.value.r == HexDigitValue(d[0]) * 16 + HexDigitValue(d[1])
      && r.value.g == HexDigitValue(d[2]) * 16 + HexDigitValue(d[3])
      && r.value.b == HexDigitValue(d[4]) * 16 + HexDigitValue(d[5])
  {
    if |s| == 7 && s[0] == '#' && AllHexDigits(s[1..]) then
      Some(Rgb(PairValue(s[1], s[2]), PairValue(s[3], s[4]), PairValue(s[5], s[6])))
    else if |s| == 6 && AllHexDigits(s) then
      Some(Rgb(PairValue(s[0], s[1]), PairValue(s[2], s[3]), PairValue(s[4], s[5])))
    else
      None
  }

  /** The two lower-case hex digits of one channel. */
  function ChannelHex(v: Byte): (h: string)
    ensures |h| == 2 && AllHexDigits(h)
  {
    [LowerHexDigit(v / 16), LowerHexDigit(v % 16)]
  }

  /** The canonical six-digit lower-case spelling of a colour, as used in
      the code-image URL. */
  function ToHex(c: Rgb): (h: string)
    ensures |h| == 6 && AllHexDigits(h)
  {
    ChannelHex(c.r) + ChannelHex(c.g) + ChannelHex(c.b)
  }

  /** Lower-cases the hexadecimal letters of a digit string. */
  function LowerHex(s: string): (r: string)
    requires AllHexDigits(s)
    ensures |r| == |s|
    ensures forall i :: 0 <= i < |s| ==> IsHexDigit(r[i]) && HexDigitValue(r[i]) == HexDigitValue(s[i])
    ensures forall i :: 0 <= i < |s| ==> !('A' <= r[i] <= 'F')
  {
    seq(|s|, i requires 0 <= i < |s| => LowerHexDigit(HexDigitValue(s[i])))
  }

  /** The two digits printed for a channel parse back to the channel. */
  lemma ChannelRoundTrip(v: Byte)
    ensures PairValue(ChannelHex(v)[0], ChannelHex(v)[1]) == v
  {
  }

  /** Parsing the canonical spelling of a colour gives the colour back,
      with or without the leading `#`. */
  lemma HexToRgbOfToHex(c: Rgb)
    ensures HexToRgb(ToHex(c)) == Some(c)
    ensures HexToRgb("#" + ToHex(c)) == Some(c)
  {
    var h := ToHex(c);
    ChannelRoundTrip(c.r);
    ChannelRoundTrip(c.g);
    ChannelRoundTrip(c.b);
    assert h[0] == ChannelHex(c.r)[0] && h[1] == ChannelHex(c.r)[1];
    assert h[2] == ChannelHex(c.g)[0] && h[3] == ChannelHex(c.g)[1];
    assert h[4] == ChannelHex(c.b)[0] && h[5] == ChannelHex(c.b)[1];
    assert HexToRgb(h) == Some(Rgb(PairValue(h[0], h[1]), PairValue(h[2], h[3]), PairValue(h[4], h[5])));
    var g := "#" + h;
    assert g[1..] == h;
    assert g[1] == h[0] && g[2] == h[1] && g[3] == h[2] && g[4] == h[3] && g[5] == h[4] && g[6] == h[5];
  }

  /** The two digits of a channel are recovered by division by 16. */
  lemma ChannelHexOfPair(hi: char, lo: char)
    requires IsHexDigit(hi) && IsHexDigit(lo)
    ensures ChannelHex(PairValue(hi, lo)) == [LowerHexDigit(HexDigitValue(hi)), LowerHexDigit(HexDigitValue(lo))]
  {
    var v := PairValue(hi, lo);
    assert v / 16 == HexDigitValue(hi) && v % 16 == HexDigitValue(lo);
  }

  /** In the other direction, printing a parsed colour gives the digits it
      was parsed from, lower-cased: `hexToRgb` forgets only the `#` and the
      case of the letters. */
  lemma ToHexOfHexToRgb(s: string)
    requires IsHexColor(s)
    ensures ToHex(HexToRgb(s).value) == LowerHex(Digits(s))
  {
    var d := Digits(s);
    var c := HexToRgb(s).value;
    assert c.r == PairValue(d[0], d[1]) && c.g == PairValue(d[2], d[3]) && c.b == PairValue(d[4], d[5]);
    ChannelHexOfPair(d[0], d[1]);
    ChannelHexOfPair(d[2], d[3]);
    ChannelHexOfPair(d[4], d[5]);
    var l := LowerHex(d);
    assert l == [l[0], l[1], l[2], l[3], l[4], l[5]];
  }

  /** Upper- and lower-case spellings parse to the same colour. */
  lemma HexToRgbCaseInsensitive(s: string, t: string)
    requires IsHexColor(s) && IsHexColor(t)
    requires LowerHex(Digits(s)) == LowerHex(Digits(t))
    ensures HexToRgb(s) == HexToRgb(t)
  {
    var ds, dt := Digits(s), Digits(t);
    forall i | 0 <= i < 6
      ensures HexDigitValue(ds[i]) == HexDigitValue(dt[i])
    {
      assert LowerHex(ds)[i] == LowerHex(dt)[i];
    }
  }
}

=== FILE: js_strings.dfy ===
/**
 String primitives of JavaScript that the validation and search code calls:
 `String.prototype.trim`, `parseInt` with no radix argument, decimal
 number-to-string conversion and `Array.prototype.join`.
 */
module JsStrings {
  import opened Wrappers

  /** The characters `trim` and `parseInt` strip: WhiteSpace and LineTerminator
      of ECMA-262 (tab, VT, FF, space, NBSP, ZWNBSP, the Zs category, LF, CR,
      LS and PS). */
  predicate IsWhiteSpace(c: char)
  {
    || c == '\t' || c == '\n' || c == '\U{000B}' || c == '\U{000C}' || c == '\r'
    || c == ' ' || c == '\U{00A0}' || c == '\U{1680}'
    || ('\U{2000}' <= c <= '\U{200A}')
    || c == '\U{2028}' || c == '\U{2029}' || c == '\U{202F}' || c == '\U{205F}'
    || c == '\U{3000}' || c == '\U{FEFF}'
  }

  predicate AllWhiteSpace(s: string)
  {
    forall i :: 0 <= i < |s| ==> IsWhiteSpace(s[i])
  }

  function TrimStart(s: string): (r: string)
    ensures |r| <= |s| && r == s[|s| - |r|..]
    ensures r == [] || !IsWhiteSpace(r[0])
    ensures forall i :: 0 <= i < |s| - |r| ==> IsWhiteSpace(s[i])
  {
    if |s| > 0 && IsWhiteSpace(s[0]) then TrimStart(s[1..]) else s
  }

  function TrimEnd(s: string): (r: string)
    ensures |r| <= |s| && r == s[..|r|]
    ensures r == [] || !IsWhiteSpace(r[|r| - 1])
    ensures forall i :: |r| <= i < |s| ==> IsWhiteSpace(s[i])
  {
    if |s| > 0 && IsWhiteSpace(s[|s| - 1]) then TrimEnd(s[..|s| - 1]) else s
  }

  /** `s.trim()`: white space dropped at both ends. */
  function Trim(s: string): (r: string)
    ensures r == [] || (!IsWhiteSpace(r[0]) && !IsWhiteSpace(r[|r| - 1]))
  {
    TrimEnd(TrimStart(s))
  }

  /** The trimmed string is the slice of `s` left after dropping white
      space at both ends. */
  lemma TrimIsSlice(s: string)
    ensures exists i, j ::
              && 0 <= i <= j <= |s| && Trim(s) == s[i..j]
              && AllWhiteSpace(s[..i]) && AllWhiteSpace(s[j..])
  {
    var t := TrimStart(s);
    var r := TrimEnd(t);
    var i := |s| - |t|;
    var j := i + |r|;
    assert t == s[i..] && r == t[..|r|];
    assert r == s[i..j];
    assert AllWhiteSpace(s[..i]);
    assert forall k :: 0 <= k < |s| - j ==> s[j..][k] == t[|r| + k];
    assert AllWhiteSpace(s[j..]);
  }

  /** `s.trim() === ''` exactly when `s` holds nothing but white space. */
  lemma {:induction false} TrimEmptyIffAllWhiteSpace(s: string)
    ensures Trim(s) == [] <==> AllWhiteSpace(s)
  {
    var t := TrimStart(s);
    if Trim(s) == [] {
      assert AllWhiteSpace(t[0..]);
      assert s == s[..|s| - |t|] + t;
    } else {
      var r := Trim(s);
      assert r == t[..|r|];
      assert !IsWhiteSpace(s[|s| - |t|]);
    }
  }

  // ---------------------------------------------------------------------
  // Decimal conversion

  function DigitChar(d: nat): (c: char)
    requires d < 10
    ensures '0' <= c <= '9'
  {
    "0123456789"[d]
  }

  /** The decimal spelling of a natural number, most significant digit first. */
  function NatToString(n: nat): (r: string)
    ensures |r| >= 1
    ensures forall i :: 0 <= i < |r| ==> '0' <= r[i] <= '9'
    ensures r[0] == '0' ==> n == 0
    decreases n
  {
    if n < 10 then [DigitChar(n)] else NatToString(n / 10) + [DigitChar(n % 10)]
  }

  /** `String(n)` for an integer. */
  function IntToString(n: int): (r: string)
    ensures |r| >= 1
  {
    if n < 0 then "-" + NatToString(-n) else NatToString(n)
  }

  /** Value of one digit in `radix` (10 or 16), if `c` is such a digit. */
  function DigitValue(c: char, radix: nat): Option<nat>
  {
    if '0' <= c <= '9' && (c as int) - ('0' as int) < radix then Some((c as int) - ('0' as int))
    else if radix == 16 && 'a' <= c <= 'f' then Some((c as int) - ('a' as int) + 10)
    else if radix == 16 && 'A' <= c <= 'F' then Some((c as int) - ('A' as int) + 10)
    else None
  }

  /** The longest prefix of `s` made of digits of `radix`. */
  function LeadingDigits(s: string, radix: nat): (r: string)
    ensures |r| <= |s| && r == s[..|r|]
    ensures forall i :: 0 <= i < |r| ==> DigitValue(r[i], radix).Some?
    ensures |r| < |s| ==> DigitValue(s[|r|], radix).None?
  {
    if |s| > 0 && DigitValue(s[0], radix).Some? then [s[0]] + LeadingDigits(s[1..], radix) else []
  }

  /** Positional value of a digit string, read most significant digit first. */
  function DigitsValue(s: string, radix: nat): nat
    requires forall i :: 0 <= i < |s| ==> DigitValue(s[i], radix).Some?
  {
    if s == [] then 0
    else DigitsValue(s[..|s| - 1], radix) * radix + DigitValue(s[|s| - 1], radix).value
  }

  /** The unsigned part of `parseInt`: a `0x`/`0X` prefix selects base 16,
      otherwise base 10, and the longest run of digits is read; `None` when
      there is no digit. */
  function ParseUnsigned(u: string): Option<nat>
  {
    var hex := |u| >= 2 && u[0] == '0' && (u[1] == 'x' || u[1] == 'X');
    var radix := if hex then 16 else 10;
    var digits := LeadingDigits(if hex then u[2..] else u, radix);
    if digits == [] then None else Some(DigitsValue(digits, radix))
  }

  /** `parseInt(s)` with no radix: skip leading white space, take an optional
      sign, then read the unsigned part; `None` stands for `NaN`. */
  function ParseInt(s: string): Option<int>
  {
    var t := TrimStart(s);
    var negative := |t| > 0 && t[0] == '-';
    var u := if |t| > 0 && (t[0] == '-' || t[0] == '+') then t[1..] else t;
    match ParseUnsigned(u)
    case None => None
    case Some(v) =>
      var signed: int := if negative then 0 - (v as int) else v as int;
      Some(signed)
  }

  lemma {:induction false} LeadingDigitsOfDecimal(s: string)
    requires forall i :: 0 <= i < |s| ==> '0' <= s[i] <= '9'
    ensures LeadingDigits(s, 10) == s
    decreases |s|
  {
    if |s| > 0 {
      LeadingDigitsOfDecimal(s[1..]);
    }
  }

  lemma DigitCharValue(d: nat)
    requires d < 10
    ensures DigitValue(DigitChar(d), 10) == Some(d)
  {
  }

  lemma {:induction false} DigitsValueOfNatToString(n: nat)
    ensures DigitsValue(NatToString(n), 10) == n
    decreases n
  {
    var r := NatToString(n);
    DigitCharValue(n % 10);
    if n >= 10 {
      DigitsValueOfNatToString(n / 10);
      assert r == NatToString(n / 10) + [DigitChar(n % 10)];
      assert r[..|r| - 1] == NatToString(n / 10);
      assert r[|r| - 1] == DigitChar(n % 10);
    } else {
      assert r == [DigitChar(n)];
      assert r[..0] == [];
    }
  }

  lemma ParseUnsignedOfNatToString(m: nat)
    ensures ParseUnsigned(NatToString(m)) == Some(m)
  {
    var d := NatToString(m);
    LeadingDigitsOfDecimal(d);
    DigitsValueOfNatToString(m);
  }

  /** Reading back the decimal spelling of an integer with `parseInt`
      yields the integer: this is how a `minlength="3"` attribute becomes 3. */
  lemma ParseIntOfIntToString(n: int)
    ensures ParseInt(IntToString(n)) == Some(n)
  {
    var s := IntToString(n);
    var m: nat := if n < 0 then -n else n;
    var d := NatToString(m);
    assert !IsWhiteSpace(s[0]);
    assert TrimStart(s) == s;
    ParseUnsignedOfNatToString(m);
    if n < 0 {
      assert s == "-" + d;
      assert s[1..] == d;
    } else {
      assert s == d && s[0] != '-' && s[0] != '+';
    }
  }

  // ---------------------------------------------------------------------
  // Array.prototype.join

  /** `xs.join(sep)`. */
  function Join(xs: seq<string>, sep: string): string
  {
    if |xs| == 0 then ""
    else if |xs| == 1 then xs[0]
    else Join(xs[..|xs| - 1], sep) + sep + xs[|xs| - 1]
  }

  function SumLengths(xs: seq<string>): nat
  {
    if |xs| == 0 then 0 else SumLengths(xs[..|xs| - 1]) + |xs[|xs| - 1]|
  }

  /** Joining `n` strings adds exactly `n - 1` separators to their contents. */
  lemma {:induction false} JoinLength(xs: seq<string>, sep: string)
    requires |xs| > 0
    ensures |Join(xs, sep)| == SumLengths(xs) + (|xs| - 1) * |sep|
    decreases |xs|
  {
    if |xs| > 1 {
      JoinLength(xs[..|xs| - 1], sep);
    } else {
      assert xs[..0] == [];
    }
  }

  /** A joined list starts with its first element, and later elements follow
      after a separator: `Join([a] + rest) == a + sep + Join(rest)`. */
  lemma {:induction false} JoinCons(a: string, rest: seq<string>, sep: string)
    requires |rest| > 0
    ensures Join([a] + rest, sep) == a + sep + Join(rest, sep)
    decreases |rest|
  {
    var xs := [a] + rest;
    if |rest| > 1 {
      assert xs[..|xs| - 1] == [a] + rest[..|rest| - 1];
      JoinCons(a, rest[..|rest| - 1], sep);
    } else {
      assert xs[..|xs| - 1] == [a];
    }
  }
}

=== FILE: js_values.dfy ===
/**
 The slice of JavaScript value semantics the custom elements rely on:
 truthiness and the `||` operator, `typeof ... === 'object'`, the string
 conversion performed by template literals and `fillText`, and property
 lookup on a plain object (a missing key reads as `undefined`).
 */
module JsValues {
  import JsStrings
  import opened Wrappers

  /** A JavaScript value as it can appear in the render state, in layout
      settings or in element attributes. Decoded images are opaque handles. */
  datatype JsValue =
    | Undefined
    | Null
    | Bool(b: bool)
    | Num(n: int)
    | Str(s: string)
    | Image(id: nat)

  /** JavaScript truthiness: `undefined`, `null`, `false`, `0` and `''` are falsy. */
  predicate Truthy(v: JsValue)
  {
    match v
    case Undefined => false
    case Null => false
    case Bool(b) => b
    case Num(n) => n != 0
    case Str(s) => s != ""
    case Image(_) => true
  }

  /** `a || b`: the left operand when it is truthy, the right one otherwise. */
  function Or(a: JsValue, b: JsValue): (r: JsValue)
    ensures Truthy(r) <==> Truthy(a) || Truthy(b)
    ensures r == a || r == b
    ensures Truthy(a) ==> r == a
    ensures !Truthy(a) ==> r == b
  {
    if Truthy(a) then a else b
  }

  /** `||` chains associate either way: `(a || b) || c` is `a || (b || c)`. */
  lemma OrAssociative(a: JsValue, b: JsValue, c: JsValue)
    ensures Or(Or(a, b), c) == Or(a, Or(b, c))
  {
  }

  /** The result of `typeof v`. */
  function TypeOf(v: JsValue): string
  {
    match v
    case Undefined => "undefined"
    case Null => "object"
    case Bool(_) => "boolean"
    case Num(_) => "number"
    case Str(_) => "string"
    case Image(_) => "object"
  }

  /** `typeof v === 'object'`, which holds for `null` as well as for images. */
  predicate IsObject(v: JsValue)
  {
    v.Null? || v.Image?
  }

  lemma IsObjectIsTypeofObject(v: JsValue)
    ensures IsObject(v) <==> TypeOf(v) == "object"
  {
  }

  /** `String(v)`, as used by template literals and by `fillText`. */
  function ToJsString(v: JsValue): string
  {
    match v
    case Undefined => "undefined"
    case Null => "null"
    case Bool(b) => if b then "true" else "false"
    case Num(n) => JsStrings.IntToString(n)
    case Str(s) => s
    case Image(_) => "[object HTMLImageElement]"
  }

  /** `o[k]` on a plain object: a missing property reads as `undefined`. */
  function Get(o: map<string, JsValue>, k: string): (r: JsValue)
    ensures k !in o ==> r == Undefined
    ensures k in o ==> r == o[k]
  {
    if k in o then o[k] else Undefined
  }
}

=== FILE: preview.dfy ===
/**
 The product preview. A template is chosen for the selected variant; the
 layout settings of that template list the elements to paint. A repaint
 first plans and awaits the assets it needs (cover image, Spotify code,
 web fonts), storing every loaded image back into the render state, and
 then turns each element into one draw command, in settings order.
 Network, image decoding and rasterisation are abstracted: asset loads
 are an oracle from a load task to an image handle, or `None` when the
 load rejects.
 */
module Preview {
  import opened Wrappers
  import opened JsValues
  import JsStrings
  import CodeImage
  import Bitmap

  // ---------------------------------------------------------------------
  // Configuration

  /** The `font` object of a text element; a missing property is `Undefined`. */
  datatype Font = Font(name: JsValue, size: JsValue, weight: JsValue, src: JsValue)

  /** The `type` of a layout element. `Other(name)` stands for a type string
      the preview does not know; a known type is always written with its own
      constructor, never as `Other`. */
  datatype Kind = Cover | Code | Record | Artist | Text | Other(name: string)

  /** The `type` string of a kind. */
  function KindName(k: Kind): string
  {
    match k
    case Cover => "cover"
    case Code => "code"
    case Record => "record"
    case Artist => "artist"
    case Text => "text"
    case Other(name) => name
  }

  /** One entry of a template's layout settings. `x` and `y` are
      `position[0]` and `position[1]`. */
  datatype Element = Element(
    kind: Kind,
    x: JsValue, y: JsValue, width: JsValue, height: JsValue,
    rotate: JsValue, color: JsValue, align: JsValue,
    font: Option<Font>, inputId: JsValue, defaultText: JsValue)

  /** A template image: its id, its URL and the variant ids it serves. */
  datatype Template = Template(id: JsValue, src: JsValue, variants: seq<JsValue>)

  /** The `default...` attributes of the preview element (`Null` when absent). */
  datatype Defaults = Defaults(record: JsValue, artist: JsValue, cover: JsValue, spotifyUri: JsValue)

  /** The parsed `templateImages`, `settings` and default attributes. */
  datatype Config = Config(templates: seq<Template>, settings: map<string, seq<Element>>, defaults: Defaults)

  const CoverKey: string := "spoties-cover"
  const CodeKey: string := "spoties-code"
  const UriKey: string := "spotify-uri"

  /** `this.defaults[kind]`. */
  function DefaultFor(d: Defaults, kind: string): JsValue
  {
    if kind == "record" then d.record
    else if kind == "artist" then d.artist
    else if kind == "cover" then d.cover
    else if kind == "spotify_uri" then d.spotifyUri
    else Undefined
  }

  /** The index of the first template whose variants include `variant`. */
  function FirstMatch(templates: seq<Template>, variant: JsValue): (r: Option<nat>)
    ensures r.None? <==> forall i :: 0 <= i < |templates| ==> variant !in templates[i].variants
    ensures r.Some? ==> && r.value < |templates|
                        && variant in templates[r.value].variants
                        && forall j :: 0 <= j < r.value ==> variant !in templates[j].variants
    decreases |templates|
  {
    if templates == [] then None
    else if variant in templates[0].variants then Some(0)
    else
      assert forall i :: 1 <= i < |templates| ==> templates[i] == templates[1..][i - 1];
      match FirstMatch(templates[1..], variant)
      case None => None
      case Some(k) => Some(k + 1)
  }

  /** `template_images.find(...)`: the template shown for a variant is the
      first one whose variants include it. */
  function SelectTemplate(templates: seq<Template>, variant: JsValue): (r: Option<Template>)
    ensures r.None? <==> forall i :: 0 <= i < |templates| ==> variant !in templates[i].variants
    ensures r.Some? ==> FirstMatch(templates, variant).Some? && r.value == templates[FirstMatch(templates, variant).value]
  {
    match FirstMatch(templates, variant)
    case None => None
    case Some(i) => Some(templates[i])
  }

  // ---------------------------------------------------------------------
  // Render state

  /** `Object.assign(data, detail)`: the detail's properties overwrite, the
      others are kept. */
  function Merge(data: map<string, JsValue>, detail: map<string, JsValue>): (r: map<string, JsValue>)
    ensures r.Keys == data.Keys + detail.Keys
    ensures forall k :: k in detail ==> r[k] == detail[k]
    ensures forall k :: k in data && k !in detail ==> r[k] == data[k]
  {
    data + detail
  }

  /** Sending the same update twice leaves the state as after the first. */
  lemma MergeIdempotent(data: map<string, JsValue>, detail: map<string, JsValue>)
    ensures Merge(Merge(data, detail), detail) == Merge(data, detail)
  {
  }

  /** Two updates in a row act like one update carrying both, the later
      one winning on shared keys. */
  lemma MergeSequential(data: map<string, JsValue>, d1: map<string, JsValue>, d2: map<string, JsValue>)
    ensures Merge(Merge(data, d1), d2) == Merge(data, Merge(d1, d2))
  {
  }

  // ---------------------------------------------------------------------
  // Phase A: asset planning and loading

  /** An asset a repaint waits for: a cover image by source, the Spotify code
      image (`getSpotifyCode(uri, true, true, color)`, then decoded), or a
      web font. */
  datatype AssetTask =
    | LoadCover(src: JsValue)
    | LoadCode(uri: JsValue, color: JsValue)
    | LoadFont(name: JsValue, src: JsValue)

  predicate IsTextKind(kind: Kind)
  {
    kind == Record || kind == Artist || kind == Text
  }

  /** `element.font?.name`, `?.size`, `?.weight`, `?.src`. */
  function FontName(e: Element): JsValue { if e.font.Some? then e.font.value.name else Undefined }
  function FontSize(e: Element): JsValue { if e.font.Some? then e.font.value.size else Undefined }
  function FontWeight(e: Element): JsValue { if e.font.Some? then e.font.value.weight else Undefined }
  function FontSrc(e: Element): JsValue { if e.font.Some? then e.font.value.src else Undefined }

  /** The URL a code task requests: background removal and padding removal
      are on, the background is the decoy for the code colour, and the
      width is 1080. */
  function CodeTaskUrl(uri: JsValue, color: JsValue): (url: string)
    ensures ToJsString(color) == "black" ==>
              url == CodeImage.CodeUrl(CodeImage.NearBlack, "black", CodeImage.DefaultWidth, ToJsString(uri))
    ensures ToJsString(color) != "black" ==>
              url == CodeImage.CodeUrl(CodeImage.NearWhite, ToJsString(color), CodeImage.DefaultWidth, ToJsString(uri))
  {
    var c := ToJsString(color);
    CodeImage.CodeUrl(CodeImage.FetchBackground(true, c, CodeImage.DefaultBackground), c, CodeImage.DefaultWidth, ToJsString(uri))
  }

  /** A code task is `getSpotifyCode(uri, true, true, color)` with the
      defaults for the remaining parameters: it requests `CodeTaskUrl`, and
      the image it resolves to has the 54px padding cut on every side and
      no pixel of the decoy background left; an image with a 108px edge
      gives none. */
  lemma CodeTaskIsGetSpotifyCode(uri: JsValue, color: JsValue, fetched: Bitmap.Image)
    requires Bitmap.Valid(fetched) && fetched.width >= 2 * Bitmap.Padding && fetched.height >= 2 * Bitmap.Padding
    ensures var r := CodeImage.GetSpotifyCode(ToJsString(uri), true, true, ToJsString(color),
                                              CodeImage.DefaultBackground, CodeImage.DefaultWidth, fetched);
            && CodeTaskUrl(uri, color) == r.url
            && (r.image.None? <==> fetched.width == 2 * Bitmap.Padding || fetched.height == 2 * Bitmap.Padding)
            && (r.image.Some? ==>
                  && r.image.value.width == fetched.width - 2 * Bitmap.Padding
                  && r.image.value.height == fetched.height - 2 * Bitmap.Padding
                  && forall p :: 0 <= p < |r.image.value.data| / 4 ==>
                       !Bitmap.Matches(r.image.value.data, p, CodeImage.DecoyColor(ToJsString(color))))
  {
    var c := ToJsString(color);
    CodeImage.BackgroundRemoved(ToJsString(uri), true, c, CodeImage.DefaultBackground, CodeImage.DefaultWidth, fetched);
    CodeImage.DecoyParses(c, CodeImage.DefaultBackground);
  }

  /** The asset one element needs, judged against the state as it is when
      the repaint starts. A value that is already an object (`typeof`
      `'object'`) is not loaded again. */
  function PlanTask(e: Element, detail: map<string, JsValue>, d: Defaults): Option<AssetTask>
  {
    if e.kind == Cover && !IsObject(Get(detail, CoverKey)) then
      Some(LoadCover(Or(Get(detail, CoverKey), d.cover)))
    else if e.kind == Code && !IsObject(Get(detail, CodeKey)) then
      Some(LoadCode(Or(Get(detail, UriKey), d.spotifyUri), Or(e.color, Str("black"))))
    else if IsTextKind(e.kind) && Truthy(FontSrc(e)) then
      Some(LoadFont(FontName(e), FontSrc(e)))
    else None
  }

  /** The promises of a repaint: one per element that needs an asset, in
      settings order. */
  function Plan(es: seq<Element>, detail: map<string, JsValue>, d: Defaults): (ts: seq<AssetTask>)
    ensures |ts| <= |es|
    ensures forall i :: 0 <= i < |es| && PlanTask(es[i], detail, d).Some? ==> PlanTask(es[i], detail, d).value in ts
    ensures forall t :: t in ts ==> exists i :: 0 <= i < |es| && PlanTask(es[i], detail, d) == Some(t)
    decreases |es|
  {
    if es == [] then []
    else
      var rest := Plan(es[1..], detail, d);
      assert forall i :: 1 <= i < |es| ==> es[i] == es[1..][i - 1];
      match PlanTask(es[0], detail, d)
      case None => rest
      case Some(t) => [t] + rest
  }

  /** A single element contributes just its own task, if any. */
  function Tasks(e: Element, detail: map<string, JsValue>, d: Defaults): seq<AssetTask>
  {
    if PlanTask(e, detail, d).Some? then [PlanTask(e, detail, d).value] else []
  }

  /** The plan as a plain list: each element's task in turn. */
  function PlanList(es: seq<Element>, detail: map<string, JsValue>, d: Defaults): seq<AssetTask>
    decreases |es|
  {
    if es == [] then [] else Tasks(es[0], detail, d) + PlanList(es[1..], detail, d)
  }

  lemma {:induction false} PlanIsList(es: seq<Element>, detail: map<string, JsValue>, d: Defaults)
    ensures Plan(es, detail, d) == PlanList(es, detail, d)
    decreases |es|
  {
    if es != [] {
      PlanIsList(es[1..], detail, d);
    }
  }

  lemma {:induction false} PlanListConcat(a: seq<Element>, b: seq<Element>, detail: map<string, JsValue>, d: Defaults)
    ensures PlanList(a + b, detail, d) == PlanList(a, detail, d) + PlanList(b, detail, d)
    decreases |a|
  {
    if a == [] {
      assert a + b == b;
    } else {
      assert (a + b)[0] == a[0] && (a + b)[1..] == a[1..] + b;
      PlanListConcat(a[1..], b, detail, d);
    }
  }

  /** The tasks come in settings order: planning a layout split in two
      plans the first part, then the second, and a single element
      contributes just its own task. */
  lemma PlanConcat(a: seq<Element>, b: seq<Element>, detail: map<string, JsValue>, d: Defaults)
    ensures Plan(a + b, detail, d) == Plan(a, detail, d) + Plan(b, detail, d)
    ensures |a| == 1 ==> Plan(a, detail, d) == Tasks(a[0], detail, d)
  {
    PlanIsList(a + b, detail, d);
    PlanIsList(a, detail, d);
    PlanIsList(b, detail, d);
    PlanListConcat(a, b, detail, d);
    if |a| == 1 {
      assert a[1..] == [];
    }
  }

  /** A cover is requested exactly when there is a cover element and the
      state holds no cover object; its source is the state's value or the
      default cover. */
  lemma PlanLoadsCoverIff(es: seq<Element>, detail: map<string, JsValue>, d: Defaults)
    ensures (exists t :: t in Plan(es, detail, d) && t.LoadCover?) <==>
            (exists i :: 0 <= i < |es| && es[i].kind == Cover) && !IsObject(Get(detail, CoverKey))
    ensures forall t :: t in Plan(es, detail, d) && t.LoadCover? ==> t.src == Or(Get(detail, CoverKey), d.cover)
  {
    var ts := Plan(es, detail, d);
    forall t | t in ts && t.LoadCover?
      ensures (exists i :: 0 <= i < |es| && es[i].kind == Cover) && !IsObject(Get(detail, CoverKey))
      ensures t.src == Or(Get(detail, CoverKey), d.cover)
    {
      var i :| 0 <= i < |es| && PlanTask(es[i], detail, d) == Some(t);
      PlanTaskCover(es[i], detail, d);
    }
    if (exists i :: 0 <= i < |es| && es[i].kind == Cover) && !IsObject(Get(detail, CoverKey)) {
      var i :| 0 <= i < |es| && es[i].kind == Cover;
      PlanTaskCover(es[i], detail, d);
      assert PlanTask(es[i], detail, d).value in ts;
    }
  }

  /** One element's part of `PlanLoadsCoverIff`. */
  lemma PlanTaskCover(e: Element, detail: map<string, JsValue>, d: Defaults)
    ensures (PlanTask(e, detail, d).Some? && PlanTask(e, detail, d).value.LoadCover?) <==>
            e.kind == Cover && !IsObject(Get(detail, CoverKey))
    ensures e.kind == Cover && !IsObject(Get(detail, CoverKey)) ==>
            PlanTask(e, detail, d) == Some(LoadCover(Or(Get(detail, CoverKey), d.cover)))
  {
  }

  /** Where a loaded image is kept: covers and codes go back into the
      state; fonts are registered with the document and change nothing here. */
  function Store(detail: map<string, JsValue>, t: AssetTask, image: nat): map<string, JsValue>
  {
    match t
    case LoadCover(_) => detail[CoverKey := Image(image)]
    case LoadCode(_, _) => detail[CodeKey := Image(image)]
    case LoadFont(_, _) => detail
  }

  predicate LoadsCover(ts: seq<AssetTask>, load: AssetTask -> Option<nat>)
  {
    exists i :: 0 <= i < |ts| && ts[i].LoadCover? && load(ts[i]).Some?
  }

  predicate LoadsCode(ts: seq<AssetTask>, load: AssetTask -> Option<nat>)
  {
    exists i :: 0 <= i < |ts| && ts[i].LoadCode? && load(ts[i]).Some?
  }

  /** `Promise.all(promises)`: every load that succeeds stores its image
      (a rejection does not cancel the others), and the whole succeeds only
      when every load does. Only the cover and code entries can change. */
  function Resolve(detail: map<string, JsValue>, ts: seq<AssetTask>, load: AssetTask -> Option<nat>): (r: (map<string, JsValue>, bool))
    ensures r.1 <==> forall i :: 0 <= i < |ts| ==> load(ts[i]).Some?
    ensures forall k :: k != CoverKey && k != CodeKey ==> Get(r.0, k) == Get(detail, k)
    ensures LoadsCover(ts, load) ==> Get(r.0, CoverKey).Image?
    ensures !LoadsCover(ts, load) ==> Get(r.0, CoverKey) == Get(detail, CoverKey)
    ensures LoadsCode(ts, load) ==> Get(r.0, CodeKey).Image?
    ensures !LoadsCode(ts, load) ==> Get(r.0, CodeKey) == Get(detail, CodeKey)
    decreases |ts|
  {
    if ts == [] then (detail, true)
    else
      var image := load(ts[0]);
      var stored := if image.Some? then Store(detail, ts[0], image.value) else detail;
      var rest := Resolve(stored, ts[1..], load);
      assert forall i :: 1 <= i < |ts| ==> ts[i] == ts[1..][i - 1];
      assert LoadsCover(ts, load) <==> (ts[0].LoadCover? && image.Some?) || LoadsCover(ts[1..], load) by {
        if LoadsCover(ts, load) && !(ts[0].LoadCover? && image.Some?) {
          var i :| 0 <= i < |ts| && ts[i].LoadCover? && load(ts[i]).Some?;
          assert ts[1..][i - 1] == ts[i];
        }
        if LoadsCover(ts[1..], load) {
          var i :| 0 <= i < |ts[1..]| && ts[1..][i].LoadCover? && load(ts[1..][i]).Some?;
          assert ts[i + 1] == ts[1..][i];
        }
      }
      assert LoadsCode(ts, load) <==> (ts[0].LoadCode? && image.Some?) || LoadsCode(ts[1..], load) by {
        if LoadsCode(ts, load) && !(ts[0].LoadCode? && image.Some?) {
          var i :| 0 <= i < |ts| && ts[i].LoadCode? && load(ts[i]).Some?;
          assert ts[1..][i - 1] == ts[i];
        }
        if LoadsCode(ts[1..], load) {
          var i :| 0 <= i < |ts[1..]| && ts[1..][i].LoadCode? && load(ts[1..][i]).Some?;
          assert ts[i + 1] == ts[1..][i];
        }
      }
      (rest.0, image.Some? && rest.1)
  }

  /** The state key a loaded asset is stored under, if any. */
  function Slot(t: AssetTask): Option<string>
  {
    match t
    case LoadCover(_) => Some(CoverKey)
    case LoadCode(_, _) => Some(CodeKey)
    case LoadFont(_, _) => None
  }

  /** Which image ends up in the state: that of the last task, in settings
      order, that loaded for the key. A single loaded cover or code task
      therefore leaves exactly its own image. */
  lemma {:induction false} ResolveStoresLastLoaded(detail: map<string, JsValue>, ts: seq<AssetTask>, load: AssetTask -> Option<nat>, i: nat)
    requires i < |ts| && Slot(ts[i]).Some? && load(ts[i]).Some?
    requires forall j :: i < j < |ts| && Slot(ts[j]) == Slot(ts[i]) ==> load(ts[j]).None?
    ensures Get(Resolve(detail, ts, load).0, Slot(ts[i]).value) == Image(load(ts[i]).value)
    decreases |ts|
  {
    if i == 0 {
      var stored := Store(detail, ts[0], load(ts[0]).value);
      var key := Slot(ts[0]).value;
      assert Get(stored, key) == Image(load(ts[0]).value);
      assert forall j :: 0 <= j < |ts[1..]| ==> ts[1..][j] == ts[j + 1];
      assert key == CoverKey ==> !LoadsCover(ts[1..], load);
      assert key == CodeKey ==> !LoadsCode(ts[1..], load);
    } else {
      var image := load(ts[0]);
      var next := if image.Some? then Store(detail, ts[0], image.value) else detail;
      assert forall j :: 1 <= j < |ts| ==> ts[j] == ts[1..][j - 1];
      ResolveStoresLastLoaded(next, ts[1..], load, i - 1);
    }
  }

  /** Phase A caches its work: once a repaint's loads have all succeeded,
      planning again against the updated state requests no cover and no
      code, only fonts. */
  lemma {:induction false} LoadedAssetsAreNotReloaded(es: seq<Element>, detail: map<string, JsValue>, d: Defaults, load: AssetTask -> Option<nat>)
    requires Resolve(detail, Plan(es, detail, d), load).1
    ensures forall t :: t in Plan(es, Resolve(detail, Plan(es, detail, d), load).0, d) ==> t.LoadFont?
  {
    var ts := Plan(es, detail, d);
    var after := Resolve(detail, ts, load).0;
    assert IsObject(Get(after, CoverKey)) || forall i :: 0 <= i < |es| ==> es[i].kind != Cover by {
      if exists i :: 0 <= i < |es| && es[i].kind == Cover {
        var i :| 0 <= i < |es| && es[i].kind == Cover;
        if !IsObject(Get(detail, CoverKey)) {
          var t := PlanTask(es[i], detail, d).value;
          assert t in ts;
          var j :| 0 <= j < |ts| && ts[j] == t;
          assert LoadsCover(ts, load);
        }
      }
    }
    assert IsObject(Get(after, CodeKey)) || forall i :: 0 <= i < |es| ==> es[i].kind != Code by {
      if exists i :: 0 <= i < |es| && es[i].kind == Code {
        var i :| 0 <= i < |es| && es[i].kind == Code;
        if !IsObject(Get(detail, CodeKey)) {
          var t := PlanTask(es[i], detail, d).value;
          assert t in ts;
          var j :| 0 <= j < |ts| && ts[j] == t;
          assert LoadsCode(ts, load);
        }
      }
    }
  }

  // ---------------------------------------------------------------------
  // Phase B: drawing

  /** A canvas operation: an image at a position and size, rotated when the
      element asks for it, or a line of text with its font, alignment and fill. */
  datatype Draw =
    | DrawImage(image: nat, x: JsValue, y: JsValue, width: JsValue, height: JsValue, rotate: Option<JsValue>)
    | DrawText(text: string, font: string, align: JsValue, fill: JsValue, x: JsValue, y: JsValue)

  /** The state key an element reads: `spoties-<inputId>` for free text,
      `spoties-<type>` otherwise. */
  function KeyOf(e: Element): (k: string)
    ensures e.kind == Cover ==> k == CoverKey
    ensures e.kind == Code ==> k == CodeKey
    ensures e.kind == Record ==> k == "spoties-record"
    ensures e.kind == Artist ==> k == "spoties-artist"
    ensures e.kind == Text ==> k == "spoties-" + ToJsString(e.inputId)
  {
    "spoties-" + (if e.kind == Text then ToJsString(e.inputId) else KindName(e.kind))
  }

  /** `ctx.font`: weight, size in pixels and family, each with its default. */
  function FontString(e: Element): string
  {
    ToJsString(Or(FontWeight(e), Str("normal"))) + " " + ToJsString(Or(FontSize(e), Num(50))) + "px " + ToJsString(Or(FontName(e), Str("arial")))
  }

  /** The text drawn for a text element: `detail[key] || defaults[type] || element.default`. */
  function TextOf(e: Element, detail: map<string, JsValue>, d: Defaults): string
  {
    ToJsString(Or(Or(Get(detail, KeyOf(e)), DefaultFor(d, KindName(e.kind))), e.defaultText))
  }

  /** The value the user entered wins; without it the element's default
      attribute, then the layout default; with none of them the text is
      the string "undefined", drawn rather than skipped. */
  lemma TextFallbacks(e: Element, detail: map<string, JsValue>, d: Defaults)
    ensures Truthy(Get(detail, KeyOf(e))) ==> TextOf(e, detail, d) == ToJsString(Get(detail, KeyOf(e)))
    ensures !Truthy(Get(detail, KeyOf(e))) && Truthy(DefaultFor(d, KindName(e.kind))) ==> TextOf(e, detail, d) == ToJsString(DefaultFor(d, KindName(e.kind)))
    ensures !Truthy(Get(detail, KeyOf(e))) && !Truthy(DefaultFor(d, KindName(e.kind))) ==> TextOf(e, detail, d) == ToJsString(e.defaultText)
    ensures e.kind == Text && KeyOf(e) !in detail && e.defaultText == Undefined ==> TextOf(e, detail, d) == "undefined"
  {
  }

  /** Without a font object the text is drawn in `normal 50px arial`. */
  lemma FontDefaults(e: Element)
    requires e.font.None?
    ensures FontString(e) == "normal 50px arial"
  {
    assert FontWeight(e) == Undefined && FontSize(e) == Undefined && FontName(e) == Undefined;
    assert ToJsString(Or(Undefined, Str("normal"))) == "normal";
    assert ToJsString(Or(Undefined, Str("arial"))) == "arial";
    FiftySpelled();
    assert ToJsString(Or(Undefined, Num(50))) == "50";
  }

  /** With a font object whose weight, size and name are all given, the
      font is exactly `<weight> <size>px <name>`. */
  lemma FontOfObject(e: Element, w: string, n: int, name: string)
    requires e.font.Some? && e.font.value.weight == Str(w) && e.font.value.size == Num(n) && e.font.value.name == Str(name)
    requires w != "" && n != 0 && name != ""
    ensures FontString(e) == w + " " + JsStrings.IntToString(n) + "px " + name
  {
  }

  lemma FiftySpelled()
    ensures JsStrings.IntToString(50) == "50"
  {
    assert JsStrings.NatToString(5) == [JsStrings.DigitChar(5)] == "5";
    assert JsStrings.NatToString(50) == JsStrings.NatToString(5) + [JsStrings.DigitChar(0)];
  }

  predicate IsDrawingKind(kind: Kind)
  {
    kind == Cover || kind == Code || IsTextKind(kind)
  }

  /** The draw command for one element. Drawing a cover or code that is not
      an image throws a `TypeError`; unknown element types draw nothing. */
  function DrawOf(e: Element, detail: map<string, JsValue>, d: Defaults): (r: Result<Option<Draw>, RepaintError>)
    ensures r.Failure? <==> (e.kind == Cover || e.kind == Code) && !Get(detail, KeyOf(e)).Image?
    ensures r.Success? ==> (r.value.Some? <==> IsDrawingKind(e.kind))
    ensures r.Success? && IsTextKind(e.kind) ==> r.value.value.DrawText? && r.value.value.text == TextOf(e, detail, d)
    ensures r.Success? && IsTextKind(e.kind) ==>
              && r.value.value.font == FontString(e)
              && r.value.value.align == Or(e.align, Str("center"))
              && r.value.value.fill == Or(e.color, Str("black"))
              && r.value.value.x == e.x && r.value.value.y == e.y
    ensures r.Success? && (e.kind == Cover || e.kind == Code) ==> r.value.value == DrawImage(Get(detail, KeyOf(e)).id, e.x, e.y, e.width, e.height, if Truthy(e.rotate) then Some(e.rotate) else None)
  {
    if e.kind == Cover || e.kind == Code then
      var image := Get(detail, KeyOf(e));
      if image.Image? then
        Success(Some(DrawImage(image.id, e.x, e.y, e.width, e.height, if Truthy(e.rotate) then Some(e.rotate) else None)))
      else Failure(DrawTypeError)
    else if IsTextKind(e.kind) then
      Success(Some(DrawText(TextOf(e, detail, d), FontString(e), Or(e.align, Str("center")), Or(e.color, Str("black")), e.x, e.y)))
    else Success(None)
  }

  /** The number of elements that draw something. */
  function DrawCount(es: seq<Element>): nat
  {
    if es == [] then 0 else (if IsDrawingKind(es[0].kind) then 1 else 0) + DrawCount(es[1..])
  }

  /** The number of results that are a draw. */
  function SomeCount(rs: seq<Result<Option<Draw>, RepaintError>>): nat
  {
    if rs == [] then 0 else (if rs[0].Success? && rs[0].value.Some? then 1 else 0) + SomeCount(rs[1..])
  }

  /** Running through the per-element results in order: the draws, or the
      first error. */
  function Collect(rs: seq<Result<Option<Draw>, RepaintError>>): (r: Result<seq<Draw>, RepaintError>)
    ensures r.Success? <==> forall i :: 0 <= i < |rs| ==> rs[i].Success?
    decreases |rs|
  {
    if rs == [] then Success([])
    else
      assert forall i :: 1 <= i < |rs| ==> rs[i] == rs[1..][i - 1];
      match rs[0]
      case Failure(err) => Failure(err)
      case Success(first) =>
        match Collect(rs[1..])
        case Failure(err) => Failure(err)
        case Success(rest) => Success((if first.Some? then [first.value] else []) + rest)
  }

  /** Collected draws keep their order: result `i`'s draw sits after the
      draws of the results before it. */
  lemma {:induction false} CollectInOrder(rs: seq<Result<Option<Draw>, RepaintError>>)
    requires Collect(rs).Success?
    ensures |Collect(rs).value| == SomeCount(rs)
    ensures forall i :: 0 <= i < |rs| && rs[i].value.Some? ==>
              SomeCount(rs[..i]) < |Collect(rs).value| &&
              Collect(rs).value[SomeCount(rs[..i])] == rs[i].value.value
    decreases |rs|
  {
    if rs != [] {
      assert forall i :: 1 <= i < |rs| ==> rs[i] == rs[1..][i - 1];
      CollectInOrder(rs[1..]);
      var ds := Collect(rs).value;
      forall i | 0 <= i < |rs| && rs[i].value.Some?
        ensures SomeCount(rs[..i]) < |ds| && ds[SomeCount(rs[..i])] == rs[i].value.value
      {
        if i == 0 {
          assert rs[..0] == [];
        } else {
          assert rs[..i][1..] == rs[1..][..i - 1];
        }
      }
    }
  }

  /** The results of drawing each element, in settings order. */
  function DrawResults(es: seq<Element>, detail: map<string, JsValue>, d: Defaults): (rs: seq<Result<Option<Draw>, RepaintError>>)
    ensures |rs| == |es|
    ensures forall i :: 0 <= i < |es| ==> rs[i] == DrawOf(es[i], detail, d)
  {
    seq(|es|, i requires 0 <= i < |es| => DrawOf(es[i], detail, d))
  }

  /** The `forEach` of phase B: stops at the first element whose draw throws. */
  function Draws(es: seq<Element>, detail: map<string, JsValue>, d: Defaults): (r: Result<seq<Draw>, RepaintError>)
    ensures r.Success? <==> forall i :: 0 <= i < |es| ==> DrawOf(es[i], detail, d).Success?
  {
    Collect(DrawResults(es, detail, d))
  }

  lemma {:induction false} SomeCountIsDrawCount(es: seq<Element>, detail: map<string, JsValue>, d: Defaults)
    requires forall i :: 0 <= i < |es| ==> DrawOf(es[i], detail, d).Success?
    ensures SomeCount(DrawResults(es, detail, d)) == DrawCount(es)
    decreases |es|
  {
    if es != [] {
      assert forall i :: 1 <= i < |es| ==> es[i] == es[1..][i - 1];
      SomeCountIsDrawCount(es[1..], detail, d);
      assert DrawResults(es, detail, d)[1..] == DrawResults(es[1..], detail, d);
    }
  }

  /** Draws come out in settings order, one per drawing element: element
      `i` draws at position "number of drawing elements before `i`". */
  lemma {:induction false} DrawsInOrder(es: seq<Element>, detail: map<string, JsValue>, d: Defaults)
    requires Draws(es, detail, d).Success?
    ensures |Draws(es, detail, d).value| == DrawCount(es)
    ensures forall i :: 0 <= i < |es| && IsDrawingKind(es[i].kind) ==>
              DrawCount(es[..i]) < |Draws(es, detail, d).value| &&
              Draws(es, detail, d).value[DrawCount(es[..i])] == DrawOf(es[i], detail, d).value.value
  {
    var rs := DrawResults(es, detail, d);
    CollectInOrder(rs);
    SomeCountIsDrawCount(es, detail, d);
    forall i | 0 <= i < |es| && IsDrawingKind(es[i].kind)
      ensures SomeCount(rs[..i]) == DrawCount(es[..i])
    {
      assert rs[..i] == DrawResults(es[..i], detail, d);
      SomeCountIsDrawCount(es[..i], detail, d);
    }
  }

  // ---------------------------------------------------------------------
  // Repaint

  /** Why a repaint produced no picture. `NoTemplate` is thrown before the
      promise chain starts; the others end in its `catch`. */
  datatype RepaintError =
    | NoTemplate
    | TemplateLoadFailed
    | NoSettings
    | AssetLoadFailed
    | DrawTypeError

  /** A finished picture: the template drawn first, then the element draws. */
  datatype Render = Render(template: Template, draws: seq<Draw>)

  /** The render state after a repaint (loaded images are written into the
      very object passed in) and the picture or the reason there is none. */
  datatype Repainted = Repainted(detail: map<string, JsValue>, result: Result<Render, RepaintError>)

  /** `settings[preview_id]`: the layout is looked up by the template id as a
      property key. */
  function LayoutOf(cfg: Config, t: Template): Option<seq<Element>>
  {
    var key := ToJsString(t.id);
    if key in cfg.settings then Some(cfg.settings[key]) else None
  }

  /** `repaint(detail)`. `templateLoaded` says whether fetching and decoding
      the template image succeeded; `load` answers each asset load. */
  function Repaint(cfg: Config, variant: JsValue, detail: map<string, JsValue>,
                   templateLoaded: bool, load: AssetTask -> Option<nat>): (r: Repainted)
    ensures SelectTemplate(cfg.templates, variant).None? ==> r == Repainted(detail, Failure(NoTemplate))
    ensures forall k :: k != CoverKey && k != CodeKey ==> Get(r.detail, k) == Get(detail, k)
    ensures SelectTemplate(cfg.templates, variant).Some? && !templateLoaded ==> r == Repainted(detail, Failure(TemplateLoadFailed))
    ensures SelectTemplate(cfg.templates, variant).Some? && templateLoaded && LayoutOf(cfg, SelectTemplate(cfg.templates, variant).value).None? ==>
              r == Repainted(detail, Failure(NoSettings))
    ensures SelectTemplate(cfg.templates, variant).Some? && templateLoaded && LayoutOf(cfg, SelectTemplate(cfg.templates, variant).value).Some? ==>
              var es := LayoutOf(cfg, SelectTemplate(cfg.templates, variant).value).value;
              r.detail == Resolve(detail, Plan(es, detail, cfg.defaults), load).0
    ensures r.result.Success? ==>
              && SelectTemplate(cfg.templates, variant) == Some(r.result.value.template)
              && LayoutOf(cfg, r.result.value.template).Some?
              && Draws(LayoutOf(cfg, r.result.value.template).value, r.detail, cfg.defaults) == Success(r.result.value.draws)
    ensures r.result.Success? ==> templateLoaded
    ensures r.result.Success? ==>
              forall t :: t in Plan(LayoutOf(cfg, r.result.value.template).value, detail, cfg.defaults) ==> load(t).Some?
    ensures && SelectTemplate(cfg.templates, variant).Some? && templateLoaded
            && LayoutOf(cfg, SelectTemplate(cfg.templates, variant).value).Some?
            && (exists t :: t in Plan(LayoutOf(cfg, SelectTemplate(cfg.templates, variant).value).value, detail, cfg.defaults) && load(t).None?)
            ==> r.result == Failure(AssetLoadFailed)
  {
    match SelectTemplate(cfg.templates, variant)
    case None => Repainted(detail, Failure(NoTemplate))
    case Some(t) =>
      if !templateLoaded then Repainted(detail, Failure(TemplateLoadFailed))
      else
        match LayoutOf(cfg, t)
        case None => Repainted(detail, Failure(NoSettings))
        case Some(es) =>
          var (after, ok) := Resolve(detail, Plan(es, detail, cfg.defaults), load);
          if !ok then Repainted(after, Failure(AssetLoadFailed))
          else
            match Draws(es, after, cfg.defaults)
            case Failure(err) => Repainted(after, Failure(err))
            case Success(ds) => Repainted(after, Success(Render(t, ds)))
  }

  /** With the template and its settings present and every load
      succeeding, a repaint yields a picture exactly when no cover or code
      element meets a `null` entry: `null` is an object, so it is neither
      loaded nor drawable, while any other non-object is replaced by its
      loaded image and an image already present is drawn as it is. */
  lemma {:induction false} LoadedRepaintDraws(cfg: Config, variant: JsValue, detail: map<string, JsValue>, load: AssetTask -> Option<nat>)
    requires SelectTemplate(cfg.templates, variant).Some?
    requires LayoutOf(cfg, SelectTemplate(cfg.templates, variant).value).Some?
    requires forall t :: load(t).Some?
    ensures var es := LayoutOf(cfg, SelectTemplate(cfg.templates, variant).value).value;
            Repaint(cfg, variant, detail, true, load).result.Success? <==>
              && !(Get(detail, CoverKey) == Null && exists i :: 0 <= i < |es| && es[i].kind == Cover)
              && !(Get(detail, CodeKey) == Null && exists i :: 0 <= i < |es| && es[i].kind == Code)
  {
    var t := SelectTemplate(cfg.templates, variant).value;
    var es := LayoutOf(cfg, t).value;
    var resolved := Resolve(detail, Plan(es, detail, cfg.defaults), load);
    assert resolved.1;
    ResolvedEntries(es, detail, cfg.defaults, load);
    assert Repaint(cfg, variant, detail, true, load).result.Success? <==> Draws(es, resolved.0, cfg.defaults).Success?;
  }

  /** When every load succeeds, a layout with a cover element ends with an
      image under the cover key exactly when that entry was not `null`
      before; the same holds for the code. */
  lemma {:induction false} ResolvedEntries(es: seq<Element>, detail: map<string, JsValue>, d: Defaults, load: AssetTask -> Option<nat>)
    requires forall t :: load(t).Some?
    ensures var after := Resolve(detail, Plan(es, detail, d), load).0;
            (exists i :: 0 <= i < |es| && es[i].kind == Cover) ==> (Get(after, CoverKey).Image? <==> Get(detail, CoverKey) != Null)
    ensures var after := Resolve(detail, Plan(es, detail, d), load).0;
            (exists i :: 0 <= i < |es| && es[i].kind == Code) ==> (Get(after, CodeKey).Image? <==> Get(detail, CodeKey) != Null)
  {
    var ts := Plan(es, detail, d);
    if exists i :: 0 <= i < |es| && es[i].kind == Cover {
      var i :| 0 <= i < |es| && es[i].kind == Cover;
      if !IsObject(Get(detail, CoverKey)) {
        var task := PlanTask(es[i], detail, d).value;
        assert task in ts;
        var j :| 0 <= j < |ts| && ts[j] == task;
        assert LoadsCover(ts, load);
      } else {
        PlanLoadsCoverIff(es, detail, d);
        assert !LoadsCover(ts, load) by {
          forall j | 0 <= j < |ts| ensures !ts[j].LoadCover? {
            assert ts[j] in ts;
          }
        }
      }
    }
    if exists i :: 0 <= i < |es| && es[i].kind == Code {
      var i :| 0 <= i < |es| && es[i].kind == Code;
      if !IsObject(Get(detail, CodeKey)) {
        var task := PlanTask(es[i], detail, d).value;
        assert task in ts;
        var j :| 0 <= j < |ts| && ts[j] == task;
        assert LoadsCode(ts, load);
      } else {
        forall j | 0 <= j < |ts| ensures !ts[j].LoadCode? {
          assert ts[j] in ts;
          var k :| 0 <= k < |es| && PlanTask(es[k], detail, d) == Some(ts[j]);
        }
      }
    }
  }

  /** When tasks for one key that load all give the same image, that image
      is what the key holds afterwards. */
  lemma {:induction false} ResolveStoresCommon(detail: map<string, JsValue>, ts: seq<AssetTask>, load: AssetTask -> Option<nat>, key: string, n: nat)
    requires forall j :: 0 <= j < |ts| && Slot(ts[j]) == Some(key) && load(ts[j]).Some? ==> load(ts[j]).value == n
    requires exists j :: 0 <= j < |ts| && Slot(ts[j]) == Some(key) && load(ts[j]).Some?
    ensures Get(Resolve(detail, ts, load).0, key) == Image(n)
    decreases |ts|
  {
    var j :| 0 <= j < |ts| && Slot(ts[j]) == Some(key) && load(ts[j]).Some?;
    if exists i :: j < i < |ts| && Slot(ts[i]) == Some(key) && load(ts[i]).Some? {
      var i :| j < i < |ts| && Slot(ts[i]) == Some(key) && load(ts[i]).Some?;
      assert ts[1..][i - 1] == ts[i];
      var image := load(ts[0]);
      var next := if image.Some? then Store(detail, ts[0], image.value) else detail;
      assert forall m :: 0 <= m < |ts[1..]| ==> ts[1..][m] == ts[m + 1];
      ResolveStoresCommon(next, ts[1..], load, key, n);
    } else {
      ResolveStoresLastLoaded(detail, ts, load, j);
    }
  }

  /** A repaint that yields a picture draws, for each cover element, the
      very image its cover load returned, whenever the state held no cover
      object beforehand. */
  lemma RepaintDrawsLoadedCover(cfg: Config, variant: JsValue, detail: map<string, JsValue>, load: AssetTask -> Option<nat>, i: nat)
    requires SelectTemplate(cfg.templates, variant).Some?
    requires LayoutOf(cfg, SelectTemplate(cfg.templates, variant).value).Some?
    requires var es := LayoutOf(cfg, SelectTemplate(cfg.templates, variant).value).value;
             i < |es| && es[i].kind == Cover
    requires !IsObject(Get(detail, CoverKey))
    requires Repaint(cfg, variant, detail, true, load).result.Success?
    ensures var es := LayoutOf(cfg, SelectTemplate(cfg.templates, variant).value).value;
            var task := LoadCover(Or(Get(detail, CoverKey), cfg.defaults.cover));
            && load(task).Some?
            && DrawOf(es[i], Repaint(cfg, variant, detail, true, load).detail, cfg.defaults).value.value.image == load(task).value
  {
    var es := LayoutOf(cfg, SelectTemplate(cfg.templates, variant).value).value;
    var task := LoadCover(Or(Get(detail, CoverKey), cfg.defaults.cover));
    var ts := Plan(es, detail, cfg.defaults);
    PlanTaskCover(es[i], detail, cfg.defaults);
    assert task in ts;
    var j :| 0 <= j < |ts| && ts[j] == task;
    PlanLoadsCoverIff(es, detail, cfg.defaults);
    forall m | 0 <= m < |ts| && Slot(ts[m]) == Some(CoverKey) && load(ts[m]).Some?
      ensures load(ts[m]).value == load(task).value
    {
      assert ts[m] in ts && ts[m].LoadCover?;
    }
    ResolveStoresCommon(detail, ts, load, CoverKey, load(task).value);
  }

  /** A repaint depends on the variant only through the template chosen for it. */
  lemma RepaintDependsOnTemplate(cfg: Config, v1: JsValue, v2: JsValue, detail: map<string, JsValue>,
                                 templateLoaded: bool, load: AssetTask -> Option<nat>)
    requires SelectTemplate(cfg.templates, v1) == SelectTemplate(cfg.templates, v2)
    ensures Repaint(cfg, v1, detail, templateLoaded, load) == Repaint(cfg, v2, detail, templateLoaded, load)
  {
  }

  // ---------------------------------------------------------------------
  // Variant changes

  /** The variant-change rule as written: with no template for the current
      variant, reading `old_preview.variants` throws (`None`); otherwise
      repaint exactly when the old template lacks the new variant. */
  function RepaintOnVariantAsWritten(templates: seq<Template>, current: JsValue, next: JsValue): (r: Option<bool>)
    ensures r.None? <==> SelectTemplate(templates, current).None?
    ensures r.Some? ==> (r.value <==> next !in SelectTemplate(templates, current).value.variants)
  {
    match SelectTemplate(templates, current)
    case None => None
    case Some(prev) => Some(next !in prev.variants)
  }

  /** The as-written rule can leave a stale picture: when a template before
      the current one also serves the new variant, the rule skips the
      repaint although the preview now selects that earlier template. */
  lemma AsWrittenMissesTemplateChange()
    ensures var a := Template(Num(1), Str("a.png"), [Str("2")]);
            var b := Template(Num(2), Str("b.png"), [Str("1"), Str("2")]);
            && SelectTemplate([a, b], Str("1")) == Some(b)
            && RepaintOnVariantAsWritten([a, b], Str("1"), Str("2")) == Some(false)
            && SelectTemplate([a, b], Str("2")) == Some(a)
  {
    var a := Template(Num(1), Str("a.png"), [Str("2")]);
    var b := Template(Num(2), Str("b.png"), [Str("1"), Str("2")]);
    assert Str("1") !in a.variants;
    assert [a, b][1..] == [b];
  }

  /** When no variant belongs to two templates, skipping is sound: a
      skipped repaint keeps the template the new variant selects. */
  lemma AsWrittenSoundForDisjointVariants(templates: seq<Template>, current: JsValue, next: JsValue)
    requires forall i, j, v :: 0 <= i < j < |templates| && v in templates[i].variants ==> v !in templates[j].variants
    requires RepaintOnVariantAsWritten(templates, current, next) == Some(false)
    ensures SelectTemplate(templates, next) == SelectTemplate(templates, current)
  {
    var i := FirstMatch(templates, current).value;
    assert next in templates[i].variants;
    var k := FirstMatch(templates, next).value;
    assert next in templates[k].variants;
  }

  /** The rule the guard evidently intends: repaint exactly when the new
      variant selects a different template than the current one. */
  predicate RepaintOnVariant(templates: seq<Template>, current: JsValue, next: JsValue)
  {
    SelectTemplate(templates, current) != SelectTemplate(templates, next)
  }

  /** Under the corrected rule a skipped repaint never leaves a stale
      picture: repainting for the new variant would give exactly what a
      repaint for the old one gives. */
  lemma SkippedRepaintIsCurrent(cfg: Config, current: JsValue, next: JsValue, detail: map<string, JsValue>,
                                templateLoaded: bool, load: AssetTask -> Option<nat>)
    requires !RepaintOnVariant(cfg.templates, current, next)
    ensures Repaint(cfg, next, detail, templateLoaded, load) == Repaint(cfg, current, detail, templateLoaded, load)
  {
    RepaintDependsOnTemplate(cfg, next, current, detail, templateLoaded, load);
  }

  /** The corrected rule repaints whenever the as-written one would have
      skipped but the selection moved. */
  lemma CorrectedRuleCatchesCounterexample()
    ensures var a := Template(Num(1), Str("a.png"), [Str("2")]);
            var b := Template(Num(2), Str("b.png"), [Str("1"), Str("2")]);
            RepaintOnVariant([a, b], Str("1"), Str("2"))
  {
    AsWrittenMissesTemplateChange();
  }

  // ---------------------------------------------------------------------
  // The preview element's state

  /** The selected variant attribute and the accumulated render state. */
  datatype State = State(variant: JsValue, data: map<string, JsValue>)

  /** The constructor: `repaint({})` paints from a fresh empty state, so
      images it loads are not kept and the element's data stays empty. */
  function Init(cfg: Config, variant: JsValue, templateLoaded: bool, load: AssetTask -> Option<nat>): (r: (State, Repainted))
    ensures r.0.variant == variant
    ensures forall k :: Get(r.0.data, k) == Undefined
    ensures forall k :: k != CoverKey && k != CodeKey ==> Get(r.1.detail, k) == Undefined
    ensures SelectTemplate(cfg.templates, variant).None? ==> r.1.result == Failure(NoTemplate)
    ensures r.1.result.Success? ==> templateLoaded && SelectTemplate(cfg.templates, variant) == Some(r.1.result.value.template)
  {
    (State(variant, map[]), Repaint(cfg, variant, map[], templateLoaded, load))
  }

  /** The images the first paint loads are thrown away: even when that
      paint loaded a cover, the first update that sends no cover object
      requests the cover again. */
  lemma InitDropsLoadedCover(cfg: Config, variant: JsValue, load: AssetTask -> Option<nat>, event: map<string, JsValue>)
    requires SelectTemplate(cfg.templates, variant).Some?
    requires LayoutOf(cfg, SelectTemplate(cfg.templates, variant).value).Some?
    requires var es := LayoutOf(cfg, SelectTemplate(cfg.templates, variant).value).value;
             exists i :: 0 <= i < |es| && es[i].kind == Cover
    requires forall t :: load(t).Some?
    requires !IsObject(Get(event, CoverKey))
    ensures var es := LayoutOf(cfg, SelectTemplate(cfg.templates, variant).value).value;
            var (st, painted) := Init(cfg, variant, true, load);
            && Get(painted.detail, CoverKey).Image?
            && Get(st.data, CoverKey) == Undefined
            && exists t :: t in Plan(es, Merge(st.data, event), cfg.defaults) && t.LoadCover?
  {
    var es := LayoutOf(cfg, SelectTemplate(cfg.templates, variant).value).value;
    ResolvedEntries(es, map[], cfg.defaults, load);
    PlanLoadsCoverIff(es, Merge(map[], event), cfg.defaults);
  }

  /** `spotiesUpdate`: merge the detail into the data and repaint from the
      data itself, so images loaded by the repaint stay in the data. */
  function OnSpotiesUpdate(cfg: Config, st: State, event: map<string, JsValue>,
                           templateLoaded: bool, load: AssetTask -> Option<nat>): (r: (State, Repainted))
    ensures r.0.variant == st.variant && r.0.data == r.1.detail
    ensures r.1 == Repaint(cfg, st.variant, Merge(st.data, event), templateLoaded, load)
    ensures forall k :: k in event && k != CoverKey && k != CodeKey ==> Get(r.0.data, k) == event[k]
    ensures forall k :: k !in event && k != CoverKey && k != CodeKey ==> Get(r.0.data, k) == Get(st.data, k)
  {
    var merged := Merge(st.data, event);
    var painted := Repaint(cfg, st.variant, merged, templateLoaded, load);
    (State(st.variant, painted.detail), painted)
  }

  /** The variant `change` listener with the corrected rule: the attribute
      takes the new id as a string, and a repaint from the data happens only
      when the selected template changes. */
  function OnVariantChange(cfg: Config, st: State, newId: JsValue,
                           templateLoaded: bool, load: AssetTask -> Option<nat>): (r: (State, Option<Repainted>))
    ensures r.0.variant == Str(ToJsString(newId))
    ensures r.1.None? <==> SelectTemplate(cfg.templates, st.variant) == SelectTemplate(cfg.templates, r.0.variant)
    ensures r.1.None? ==> r.0.data == st.data
    ensures r.1.Some? ==> r.0.data == r.1.value.detail
    ensures r.1.Some? ==> r.1.value == Repaint(cfg, r.0.variant, st.data, templateLoaded, load)
  {
    var next := Str(ToJsString(newId));
    if RepaintOnVariant(cfg.templates, st.variant, next) then
      var painted := Repaint(cfg, next, st.data, templateLoaded, load);
      (State(next, painted.detail), Some(painted))
    else (State(next, st.data), None)
  }

  /** The variant `change` listener as written: the attribute is set
      first; with no template for the old variant, reading its `variants`
      then throws (`NoTemplate`) and the data is left alone; otherwise a
      repaint from the data happens exactly when the old template does not
      list the new variant. */
  function OnVariantChangeAsWritten(cfg: Config, st: State, newId: JsValue,
                                    templateLoaded: bool, load: AssetTask -> Option<nat>): (r: (State, Result<Option<Repainted>, RepaintError>))
    ensures r.0.variant == Str(ToJsString(newId))
    ensures r.1.Failure? <==> SelectTemplate(cfg.templates, st.variant).None?
    ensures r.1.Failure? ==> r.1.error == NoTemplate && r.0.data == st.data
    ensures r.1.Success? ==> (r.1.value.Some? <==> r.0.variant !in SelectTemplate(cfg.templates, st.variant).value.variants)
    ensures r.1.Success? && r.1.value.None? ==> r.0.data == st.data
    ensures r.1.Success? && r.1.value.Some? ==>
              r.0.data == r.1.value.value.detail && r.1.value.value == Repaint(cfg, r.0.variant, st.data, templateLoaded, load)
  {
    var next := Str(ToJsString(newId));
    match RepaintOnVariantAsWritten(cfg.templates, st.variant, next)
    case None => (State(next, st.data), Failure(NoTemplate))
    case Some(repaint) =>
      if repaint then
        var painted := Repaint(cfg, next, st.data, templateLoaded, load);
        (State(next, painted.detail), Success(Some(painted)))
      else (State(next, st.data), Success(None))
  }

  /** On the counterexample of `AsWrittenMissesTemplateChange` the listener
      as written skips the repaint, so the picture still shows template b
      although the variant now selects template a. */
  lemma AsWrittenTransitionKeepsStalePicture(cfg: Config, data: map<string, JsValue>, templateLoaded: bool, load: AssetTask -> Option<nat>)
    requires cfg.templates == [Template(Num(1), Str("a.png"), [Str("2")]), Template(Num(2), Str("b.png"), [Str("1"), Str("2")])]
    ensures var r := OnVariantChangeAsWritten(cfg, State(Str("1"), data), Str("2"), templateLoaded, load);
            && r.1 == Success(None)
            && SelectTemplate(cfg.templates, r.0.variant) != SelectTemplate(cfg.templates, Str("1"))
  {
    AsWrittenMissesTemplateChange();
    assert ToJsString(Str("2")) == "2";
  }

  /** A text value sent by a field is what its element draws after the
      update, whatever the repaint's asset loads did. */
  lemma {:induction false} UpdatedTextIsDrawn(cfg: Config, st: State, event: map<string, JsValue>, e: Element,
                                              templateLoaded: bool, load: AssetTask -> Option<nat>, s: string)
    requires IsTextKind(e.kind) && KeyOf(e) != CoverKey && KeyOf(e) != CodeKey
    requires KeyOf(e) in event && event[KeyOf(e)] == Str(s) && s != ""
    ensures var after := OnSpotiesUpdate(cfg, st, event, templateLoaded, load).0;
            DrawOf(e, after.data, cfg.defaults).Success? &&
            DrawOf(e, after.data, cfg.defaults).value.value.text == s
  {
    var after := OnSpotiesUpdate(cfg, st, event, templateLoaded, load).0;
    TextFallbacks(e, after.data, cfg.defaults);
  }
}

=== FILE: search.dfy ===
/**
 The search field's data transforms: turning a catalogue search response
 into the list of shown results, the guard that decides whether a search
 or "load more" runs and which offset it asks for, and how a selected
 result fans out as updates to the other fields (the record-name and
 artist-name fields copy one property of the selection each).
 The requests themselves (token fetch, search API) are not modelled.
 */
module Search {
  import opened Wrappers
  import opened JsValues
  import JsStrings
  import Validation

  /** The album part of a catalogue item: artist names and image URLs. */
  datatype Album = Album(artists: seq<string>, images: seq<string>)

  /** One item of a search response. A track has an `album`; an album item
      carries its own artists and images. */
  datatype Item = Item(name: string, uri: string, album: Option<Album>, artists: seq<string>, images: seq<string>)

  /** A search response: `tracks.items` or `albums.items`, when present. */
  datatype Response = Response(tracks: Option<seq<Item>>, albums: Option<seq<Item>>)

  /** One shown search result (the detail of its `resClick` event). */
  datatype Hit = Hit(image: string, name: string, artists: string, uri: string)

  /** `item.album ? item.album : item`. */
  function AlbumOf(item: Item): Album
  {
    if item.album.Some? then item.album.value else Album(item.artists, item.images)
  }

  /** The result shown for one item; `None` when `album.images[1]` does not
      exist, where reading `.url` throws. */
  function HitOf(item: Item): (h: Option<Hit>)
    ensures h.Some? <==> |AlbumOf(item).images| >= 2
    ensures h.Some? ==> h.value.name == item.name && h.value.uri == item.uri
    ensures h.Some? ==> h.value.image == AlbumOf(item).images[1]
    ensures h.Some? ==> h.value.artists == JsStrings.Join(AlbumOf(item).artists, ", ")
  {
    var album := AlbumOf(item);
    if |album.images| < 2 then None
    else Some(Hit(album.images[1], item.name, JsStrings.Join(album.artists, ", "), item.uri))
  }

  /** The results appended by one `showResults` call, and whether it threw
      part-way (results before the throwing item stay shown). */
  datatype ShowOutcome = ShowOutcome(hits: seq<Hit>, failed: bool)

  /** `items.forEach(...)`: one result per item, in order, until an item
      throws. */
  function MapHits(items: seq<Item>): (r: ShowOutcome)
    ensures |r.hits| <= |items|
    ensures forall i :: 0 <= i < |r.hits| ==> HitOf(items[i]) == Some(r.hits[i])
    ensures !r.failed <==> |r.hits| == |items|
    ensures r.failed ==> HitOf(items[|r.hits|]).None?
    decreases |items|
  {
    if items == [] then ShowOutcome([], false)
    else
      match HitOf(items[0])
      case None => ShowOutcome([], true)
      case Some(h) =>
        var rest := MapHits(items[1..]);
        ShowOutcome([h] + rest.hits, rest.failed)
  }

  /** `showResults(results)`: tracks when the response has them, albums
      otherwise; a response with neither throws before showing anything. */
  function ShowResults(resp: Response): (r: ShowOutcome)
    ensures resp.tracks.Some? ==> r == MapHits(resp.tracks.value)
    ensures resp.tracks.None? && resp.albums.Some? ==> r == MapHits(resp.albums.value)
    ensures resp.tracks.None? && resp.albums.None? ==> r == ShowOutcome([], true)
  {
    if resp.tracks.Some? then MapHits(resp.tracks.value)
    else if resp.albums.Some? then MapHits(resp.albums.value)
    else ShowOutcome([], true)
  }

  /** A track's result lists the artists of its album, not its own. */
  lemma TrackShowsAlbumArtists(item: Item)
    requires item.album.Some? && |item.album.value.images| >= 2
    ensures HitOf(item).value.artists == JsStrings.Join(item.album.value.artists, ", ")
  {
  }

  // ---------------------------------------------------------------------
  // Searching and paging

  /** The shown results of the search field. */
  datatype SearchState = SearchState(shown: seq<Hit>)

  /** A request to the search API: the query and the `offset` parameter. */
  datatype Request = Request(query: string, offset: nat)

  /** The guard of `onSearch` and `onLoadMore`: nothing happens while
      loading or when the query is blank. */
  predicate ShouldSearch(loading: bool, query: string)
  {
    !(loading || JsStrings.Trim(query) == "")
  }

  /** A query runs exactly when it contains a character that is not white space. */
  lemma ShouldSearchIffNonBlank(loading: bool, query: string)
    ensures ShouldSearch(loading, query) <==>
            !loading && exists i :: 0 <= i < |query| && !JsStrings.IsWhiteSpace(query[i])
  {
    JsStrings.TrimEmptyIffAllWhiteSpace(query);
  }

  /** `onSearch`: a query with some non-blank character, while not loading,
      clears the shown results and asks for the first page; anything else
      changes nothing and asks for nothing. */
  function OnSearch(st: SearchState, loading: bool, query: string): (r: (SearchState, Option<Request>))
    ensures r.1.Some? <==> !loading && exists i :: 0 <= i < |query| && !JsStrings.IsWhiteSpace(query[i])
    ensures r.1.Some? ==> r.0.shown == [] && r.1.value == Request(query, 0)
    ensures r.1.None? ==> r.0 == st
  {
    ShouldSearchIffNonBlank(loading, query);
    if !ShouldSearch(loading, query) then (st, None)
    else (SearchState([]), Some(Request(query, 0)))
  }

  /** `onLoadMore`: under the same guard, ask for the page that starts right
      after the results already shown. */
  function OnLoadMore(st: SearchState, loading: bool, query: string): (r: Option<Request>)
    ensures r.Some? <==> !loading && exists i :: 0 <= i < |query| && !JsStrings.IsWhiteSpace(query[i])
    ensures r.Some? ==> r.value.query == query && r.value.offset == |st.shown|
  {
    ShouldSearchIffNonBlank(loading, query);
    if !ShouldSearch(loading, query) then None
    else Some(Request(query, |st.shown|))
  }

  /** The shown results after `showResults` appended a page. */
  function Receive(st: SearchState, page: ShowOutcome): SearchState
  {
    SearchState(st.shown + page.hits)
  }

  function Concat(pages: seq<seq<Hit>>): seq<Hit>
  {
    if pages == [] then [] else pages[0] + Concat(pages[1..])
  }

  /** Repeated "load more" on a query that passes the guard: for each page,
      issue the request `OnLoadMore` issues and append what came back.
      Returns the final state and the requests issued. */
  function LoadPages(st: SearchState, query: string, pages: seq<seq<Hit>>): (SearchState, seq<Request>)
    requires ShouldSearch(false, query)
    decreases |pages|
  {
    if pages == [] then (st, [])
    else
      var next := LoadPages(Receive(st, ShowOutcome(pages[0], false)), query, pages[1..]);
      (next.0, [OnLoadMore(st, false, query).value] + next.1)
  }

  /** Load-more appends the pages in the order they arrive, one request each. */
  lemma {:induction false} PagingAppends(st: SearchState, query: string, pages: seq<seq<Hit>>)
    requires ShouldSearch(false, query)
    ensures LoadPages(st, query, pages).0.shown == st.shown + Concat(pages)
    ensures |LoadPages(st, query, pages).1| == |pages|
    decreases |pages|
  {
    if pages != [] {
      var st1 := Receive(st, ShowOutcome(pages[0], false));
      var rest := LoadPages(st1, query, pages[1..]);
      assert LoadPages(st, query, pages) == (rest.0, [OnLoadMore(st, false, query).value] + rest.1);
      PagingAppends(st1, query, pages[1..]);
      assert st1.shown + Concat(pages[1..]) == st.shown + (pages[0] + Concat(pages[1..]));
    }
  }

  /** Paging never skips or repeats a result: every "load more" asks for the
      offset equal to the number of results shown so far. */
  lemma {:induction false} PagingIsContiguous(st: SearchState, query: string, pages: seq<seq<Hit>>)
    requires ShouldSearch(false, query)
    ensures |LoadPages(st, query, pages).1| == |pages|
    ensures forall i :: 0 <= i < |pages| ==>
              LoadPages(st, query, pages).1[i] == Request(query, |st.shown| + |Concat(pages[..i])|)
    decreases |pages|
  {
    PagingAppends(st, query, pages);
    if pages != [] {
      var st1 := Receive(st, ShowOutcome(pages[0], false));
      PagingIsContiguous(st1, query, pages[1..]);
      var reqs := LoadPages(st, query, pages).1;
      assert reqs == [OnLoadMore(st, false, query).value] + LoadPages(st1, query, pages[1..]).1;
      forall i | 0 <= i < |pages|
        ensures reqs[i] == Request(query, |st.shown| + |Concat(pages[..i])|)
      {
        if i == 0 {
          assert pages[..0] == [];
        } else {
          ConcatPrefix(pages, i);
        }
      }
    }
  }

  lemma ConcatPrefix(pages: seq<seq<Hit>>, i: nat)
    requires 0 < i <= |pages|
    ensures |Concat(pages[..i])| == |pages[0]| + |Concat(pages[1..][..i - 1])|
  {
    assert pages[..i][1..] == pages[1..][..i - 1];
  }

  // ---------------------------------------------------------------------
  // Selection fan-out

  /** The detail of `resClick`, re-sent to every field as `spotiesSelected`. */
  function SelectionDetail(h: Hit): map<string, JsValue>
  {
    map["record" := Str(h.name), "artists" := Str(h.artists), "image" := Str(h.image), "uri" := Str(h.uri)]
  }

  /** `update_value`: the property of the selection a text field copies;
      plain text fields do not follow selections. */
  function UpdateKey(role: Validation.TextRole): (k: Option<string>)
    ensures role == Validation.Record ==> k == Some("record")
    ensures role == Validation.Artist ==> k == Some("artists")
    ensures role == Validation.Plain ==> k == None
  {
    match role
    case Plain => None
    case Record => Some("record")
    case Artist => Some("artists")
  }

  /** Assigning a value to `input.value`: `null` becomes the empty string,
      anything else its string form. */
  function InputValue(v: JsValue): string
  {
    if v == Null then "" else ToJsString(v)
  }

  /** A field on `spotiesSelected`: the field afterwards and the `update`
      detail it sends. A record or artist field copies its property of the
      selection into its input and sends `{[input.id]: value}`. The cover
      field fetches the result's image as a data URL (`coverImage`, `None`
      when that fetch rejects) and passes it to `setCoverImage`, which
      stores it and sends it as `spoties-cover`. Other fields do not react. */
  function OnSelected(f: Validation.Field, h: Hit, coverImage: Option<string>): (r: Option<(Validation.Field, map<string, JsValue>)>)
    ensures r.Some? <==> (f.TextField? && f.role != Validation.Plain) || (f.CoverField? && coverImage.Some?)
    ensures r.Some? && f.TextField? ==>
              && r.value.0.TextField?
              && r.value.0 == Validation.TextField(f.role, f.inputId, f.input.(value := r.value.0.input.value))
              && r.value.1 == map[f.inputId := Str(r.value.0.input.value)]
    ensures r.Some? && f.CoverField? ==>
              r.value.0 == Validation.CoverField(Str(coverImage.value)) && r.value.1 == CoverUpdate(coverImage.value)
  {
    match f
    case TextField(role, id, input) =>
      if UpdateKey(role).Some? then
        var value := InputValue(Get(SelectionDetail(h), UpdateKey(role).value));
        Some((Validation.TextField(role, id, input.(value := value)), map[id := Str(value)]))
      else None
    case CoverField(_) =>
      if coverImage.Some? then Some((Validation.CoverField(Str(coverImage.value)), CoverUpdate(coverImage.value)))
      else None
    case _ => None
  }

  /** The record-name field takes the result's name and the artist-name
      field its joined artists. */
  lemma SelectionFillsRecordAndArtist(id: string, input: Validation.TextInput, h: Hit, coverImage: Option<string>)
    ensures OnSelected(Validation.TextField(Validation.Record, id, input), h, coverImage).value.0.input.value == h.name
    ensures OnSelected(Validation.TextField(Validation.Artist, id, input), h, coverImage).value.0.input.value == h.artists
  {
  }

  /** A selection whose image was fetched makes the cover field valid,
      whatever it held before, and its update carries that image. */
  lemma SelectionFillsCover(coverData: JsValue, h: Hit, image: string)
    requires image != ""
    ensures var r := OnSelected(Validation.CoverField(coverData), h, Some(image)).value;
            && Validation.ValidateField(r.0) == Some(Validation.Verdict(true, []))
            && Get(r.1, "spoties-cover") == Str(image)
  {
  }

  /** The search field's `update` detail once the code image is ready. */
  function CodeSelectedUpdate(codeSrc: string, uri: string): map<string, JsValue>
  {
    map["spoties-code" := Str(codeSrc), "spotify-uri" := Str(uri)]
  }

  /** The cover field's `update` detail after `setCoverImage`. */
  function CoverUpdate(image: string): map<string, JsValue>
  {
    map["spoties-cover" := Str(image)]
  }
}

=== FILE: storefront.dfy ===
/**
 How the fields and the preview meet. The fields container forwards each
 field's `update` detail to the preview as `spotiesUpdate`, and a search
 selection to every field as `spotiesSelected`. These lemmas follow a
 detail from the field that sends it to what the preview does with it.
 */
module Storefront {
  import opened Wrappers
  import opened JsValues
  import Validation
  import Search
  import Preview

  /** Choosing a search result fills the record-name field, whose update
      makes every record element draw the result's name. The field's input
      id is taken to be `spoties-record`, the key record elements read; the
      storefront markup sets it so. */
  lemma {:induction false} SelectedRecordIsDrawn(cfg: Preview.Config, st: Preview.State, input: Validation.TextInput,
                                                 h: Search.Hit, e: Preview.Element,
                                                 templateLoaded: bool, load: Preview.AssetTask -> Option<nat>)
    requires e.kind == Preview.Record && h.name != ""
    ensures var upd := Search.OnSelected(Validation.TextField(Validation.Record, "spoties-record", input), h, None).value.1;
            var after := Preview.OnSpotiesUpdate(cfg, st, upd, templateLoaded, load).0;
            Preview.DrawOf(e, after.data, cfg.defaults).Success? &&
            Preview.DrawOf(e, after.data, cfg.defaults).value.value.text == h.name
  {
    var upd := Search.OnSelected(Validation.TextField(Validation.Record, "spoties-record", input), h, None).value.1;
    Search.SelectionFillsRecordAndArtist("spoties-record", input, h, None);
    assert Preview.KeyOf(e) == "spoties-record";
    assert "spoties-record"[8] != Preview.CoverKey[8] && "spoties-record"[8] != Preview.CodeKey[8];
    Preview.UpdatedTextIsDrawn(cfg, st, upd, e, templateLoaded, load, h.name);
  }

  /** The same for the artist-name field and artist elements, with the
      input id `spoties-artist`. */
  lemma {:induction false} SelectedArtistsAreDrawn(cfg: Preview.Config, st: Preview.State, input: Validation.TextInput,
                                                   h: Search.Hit, e: Preview.Element,
                                                   templateLoaded: bool, load: Preview.AssetTask -> Option<nat>)
    requires e.kind == Preview.Artist && h.artists != ""
    ensures var upd := Search.OnSelected(Validation.TextField(Validation.Artist, "spoties-artist", input), h, None).value.1;
            var after := Preview.OnSpotiesUpdate(cfg, st, upd, templateLoaded, load).0;
            Preview.DrawOf(e, after.data, cfg.defaults).Success? &&
            Preview.DrawOf(e, after.data, cfg.defaults).value.value.text == h.artists
  {
    var upd := Search.OnSelected(Validation.TextField(Validation.Artist, "spoties-artist", input), h, None).value.1;
    Search.SelectionFillsRecordAndArtist("spoties-artist", input, h, None);
    assert Preview.KeyOf(e) == "spoties-artist";
    assert "spoties-artist"[8] != Preview.CoverKey[8] && "spoties-artist"[8] != Preview.CodeKey[8];
    Preview.UpdatedTextIsDrawn(cfg, st, upd, e, templateLoaded, load, h.artists);
  }

  /** A new cover is never hidden by an image cached from an earlier
      repaint: the cover field sends a data URL string, which is not an
      object, so the next repaint loads exactly that source. */
  lemma {:induction false} NewCoverIsLoaded(cfg: Preview.Config, st: Preview.State, image: string, es: seq<Preview.Element>, i: nat)
    requires image != "" && i < |es| && es[i].kind == Preview.Cover
    ensures Preview.LoadCover(Str(image)) in Preview.Plan(es, Preview.Merge(st.data, Search.CoverUpdate(image)), cfg.defaults)
  {
    var merged := Preview.Merge(st.data, Search.CoverUpdate(image));
    assert Get(merged, Preview.CoverKey) == Str(image);
    assert Preview.PlanTask(es[i], merged, cfg.defaults) == Some(Preview.LoadCover(Str(image)));
  }

  /** After a selection the preview does not draw the code image the search
      field rendered: the sent `spoties-code` is a string, so the repaint
      requests the code again for the sent URI, in the element's colour. */
  lemma {:induction false} SelectedCodeIsRefetched(cfg: Preview.Config, st: Preview.State, src: string, uri: string,
                                                   es: seq<Preview.Element>, i: nat)
    requires uri != "" && i < |es| && es[i].kind == Preview.Code
    ensures Preview.LoadCode(Str(uri), Or(es[i].color, Str("black")))
              in Preview.Plan(es, Preview.Merge(st.data, Search.CodeSelectedUpdate(src, uri)), cfg.defaults)
  {
    var merged := Preview.Merge(st.data, Search.CodeSelectedUpdate(src, uri));
    assert Get(merged, Preview.CodeKey) == Str(src);
    assert Get(merged, Preview.UriKey) == Str(uri);
    assert Preview.PlanTask(es[i], merged, cfg.defaults) == Some(Preview.LoadCode(Str(uri), Or(es[i].color, Str("black"))));
  }
}

=== FILE: validation.dfy ===
/**
 Field validation. Each field clears its error list, decides whether its
 value is acceptable and adds its messages in a fixed order; the fields
 container asks every child in turn and accepts only when all of them do.
 The error list a field shows is the `errors` of its `Verdict`.
 */
module Validation {
  import opened Wrappers
  import opened JsValues
  import JsStrings

  /** The boolean a field's `validate()` returns and the messages it shows. */
  datatype Verdict = Verdict(valid: bool, errors: seq<string>)

  const SearchMessage: string := "Var vänlig och välj en låt"
  const CoverMessage: string := "Var vänlig och ange en omslagsbild"
  const RequiredMessage: string := "Var vänlig och ange"

  /** The message for a too-short value; it quotes the attribute text as written. */
  function MinMessage(minlength: string): string
  {
    "Var vänlig och ange minst " + minlength + " tecken"
  }

  /** The message for a too-long value; it quotes the attribute text as written. */
  function MaxMessage(maxlength: string): string
  {
    "Var vänlig och ange max " + maxlength + " tecken"
  }

  /** `v !== '' && v != null`: loose `!= null` also rejects `undefined`. */
  predicate IsPresent(v: JsValue)
  {
    v != Str("") && v != Null && v != Undefined
  }

  // ---------------------------------------------------------------------
  // Search field

  /** `SpotiesSearch.validate`: a required search field needs a selected URI. */
  function ValidateSearch(required: bool, spotifyUri: JsValue): (r: Verdict)
    ensures !r.valid <==> required && (spotifyUri == Null || spotifyUri == Undefined || spotifyUri == Str(""))
    ensures r.errors == if r.valid then [] else [SearchMessage]
  {
    var valid := if required then IsPresent(spotifyUri) else true;
    Verdict(valid, if valid then [] else [SearchMessage])
  }

  // ---------------------------------------------------------------------
  // Cover field

  /** `SpotiesCoverImage.validate`: a cover image must have been set. */
  function ValidateCover(coverData: JsValue): (r: Verdict)
    ensures !r.valid <==> coverData == Null || coverData == Undefined || coverData == Str("")
    ensures r.errors == if r.valid then [] else [CoverMessage]
  {
    var valid := IsPresent(coverData);
    Verdict(valid, if valid then [] else [CoverMessage])
  }

  // ---------------------------------------------------------------------
  // Text fields (plain, record name and artist name)

  /** The input's value and its `required`, `minlength` and `maxlength`
      attributes (`None` when the attribute is absent). */
  datatype TextInput = TextInput(value: string, required: bool, minlength: Option<string>, maxlength: Option<string>)

  /** A required value must contain some character that is not white space. */
  predicate RequiredOk(t: TextInput)
  {
    !t.required || exists i :: 0 <= i < |t.value| && !JsStrings.IsWhiteSpace(t.value[i])
  }

  /** `length >= parseInt(minlength)`; a `NaN` bound is never met. */
  predicate MinOk(t: TextInput)
  {
    t.minlength.None? ||
    (JsStrings.ParseInt(t.minlength.value).Some? && |t.value| >= JsStrings.ParseInt(t.minlength.value).value)
  }

  /** `length <= parseInt(maxlength)`; a `NaN` bound is never met. */
  predicate MaxOk(t: TextInput)
  {
    t.maxlength.None? ||
    (JsStrings.ParseInt(t.maxlength.value).Some? && |t.value| <= JsStrings.ParseInt(t.maxlength.value).value)
  }

  /** The text a length message quotes (`""` when the attribute is absent;
      the message is then never shown). */
  function MinText(t: TextInput): string
  {
    if t.minlength.Some? then t.minlength.value else ""
  }

  function MaxText(t: TextInput): string
  {
    if t.maxlength.Some? then t.maxlength.value else ""
  }

  /** Position of a text-field message in the order the field adds them. */
  function Rank(minText: string, m: string): nat
  {
    if m == RequiredMessage then 0
    else if m == MinMessage(minText) then 1
    else 2
  }

  function MessageRank(t: TextInput, m: string): nat
  {
    Rank(MinText(t), m)
  }

  lemma MessagesDistinct(a: string, b: string)
    ensures RequiredMessage != MinMessage(a) && RequiredMessage != MaxMessage(b)
    ensures MinMessage(a) != MaxMessage(b)
  {
    assert |RequiredMessage| < |MinMessage(a)| && |RequiredMessage| < |MaxMessage(b)|;
    assert MinMessage(a)[21] == 'i' && MaxMessage(b)[21] == 'a';
  }

  /** The messages added for the three check results, in the order the
      field adds them. */
  function TextErrors(requiredValid: bool, minValid: bool, maxValid: bool, minText: string, maxText: string): (e: seq<string>)
    ensures |e| <= 3
    ensures e == [] <==> requiredValid && minValid && maxValid
    ensures RequiredMessage in e <==> !requiredValid && minValid
    ensures MinMessage(minText) in e <==> !minValid
    ensures MaxMessage(maxText) in e <==> !maxValid
    ensures forall m :: m in e ==> m == RequiredMessage || m == MinMessage(minText) || m == MaxMessage(maxText)
    ensures forall i, j :: 0 <= i < j < |e| ==> Rank(minText, e[i]) < Rank(minText, e[j])
  {
    MessagesDistinct(minText, maxText);
    var e1: seq<string> := if !requiredValid && minValid then [RequiredMessage] else [];
    var e2: seq<string> := if !minValid then [MinMessage(minText)] else [];
    var e3: seq<string> := if !maxValid then [MaxMessage(maxText)] else [];
    assert forall m :: m in e1 ==> Rank(minText, m) == 0;
    assert forall m :: m in e2 ==> Rank(minText, m) == 1;
    assert forall m :: m in e3 ==> Rank(minText, m) == 2;
    e1 + e2 + e3
  }

  /** `required_valid`: `value.trim() !== ''` when the attribute is present. */
  function RequiredValid(t: TextInput): (b: bool)
    ensures b <==> RequiredOk(t)
  {
    JsStrings.TrimEmptyIffAllWhiteSpace(t.value);
    if t.required then JsStrings.Trim(t.value) != "" else true
  }

  /** `min_valid`: `length >= parseInt(minlength)` when the attribute is present. */
  function MinValid(t: TextInput): (b: bool)
    ensures b <==> MinOk(t)
  {
    if t.minlength.Some? then
      var m := JsStrings.ParseInt(t.minlength.value);
      m.Some? && |t.value| >= m.value
    else true
  }

  /** `max_valid`: `length <= parseInt(maxlength)` when the attribute is present. */
  function MaxValid(t: TextInput): (b: bool)
    ensures b <==> MaxOk(t)
  {
    if t.maxlength.Some? then
      var m := JsStrings.ParseInt(t.maxlength.value);
      m.Some? && |t.value| <= m.value
    else true
  }

  /** `SpotiesTextField.validate`. The result is the conjunction of the three
      checks; the "required" message is shown only when the minimum-length
      check passes; messages come in the order required, minimum, maximum;
      and an absent attribute never fails. */
  function ValidateText(t: TextInput): (r: Verdict)
    ensures r.valid <==> RequiredOk(t) && MinOk(t) && MaxOk(t)
    ensures r.valid <==> r.errors == []
    ensures RequiredMessage in r.errors <==> !RequiredOk(t) && MinOk(t)
    ensures MinMessage(MinText(t)) in r.errors <==> !MinOk(t)
    ensures MaxMessage(MaxText(t)) in r.errors <==> !MaxOk(t)
    ensures t.minlength.Some? ==> (MinMessage(t.minlength.value) in r.errors <==> !MinOk(t))
    ensures t.maxlength.Some? ==> (MaxMessage(t.maxlength.value) in r.errors <==> !MaxOk(t))
    ensures t.minlength.None? ==> forall m :: m in r.errors ==> m != MinMessage(MinText(t))
    ensures t.maxlength.None? ==> forall m :: m in r.errors ==> m != MaxMessage(MaxText(t))
    ensures |r.errors| <= 3
    ensures forall m :: m in r.errors ==> m == RequiredMessage || m == MinMessage(MinText(t)) || m == MaxMessage(MaxText(t))
    ensures forall i, j :: 0 <= i < j < |r.errors| ==> MessageRank(t, r.errors[i]) < MessageRank(t, r.errors[j])
  {
    var requiredValid, minValid, maxValid := RequiredValid(t), MinValid(t), MaxValid(t);
    Verdict(requiredValid && minValid && maxValid, TextErrors(requiredValid, minValid, maxValid, MinText(t), MaxText(t)))
  }

  /** A `minlength` written as a decimal number is a lower bound on the
      length; one that `parseInt` cannot read is never met. */
  lemma MinValidMeaning(t: TextInput, n: int)
    ensures t.minlength == Some(JsStrings.IntToString(n)) ==> (MinValid(t) <==> |t.value| >= n)
    ensures t.minlength.Some? && JsStrings.ParseInt(t.minlength.value).None? ==> !MinValid(t)
    ensures t.minlength.None? ==> MinValid(t)
  {
    JsStrings.ParseIntOfIntToString(n);
  }

  /** A `maxlength` written as a decimal number is an upper bound on the
      length; one that `parseInt` cannot read is never met. */
  lemma MaxValidMeaning(t: TextInput, n: int)
    ensures t.maxlength == Some(JsStrings.IntToString(n)) ==> (MaxValid(t) <==> |t.value| <= n)
    ensures t.maxlength.Some? && JsStrings.ParseInt(t.maxlength.value).None? ==> !MaxValid(t)
    ensures t.maxlength.None? ==> MaxValid(t)
  {
    JsStrings.ParseIntOfIntToString(n);
  }

  /** With none of the three attributes, any value is accepted. */
  lemma NoAttributesAlwaysValid(value: string)
    ensures ValidateText(TextInput(value, false, None, None)) == Verdict(true, [])
  {
  }

  // ---------------------------------------------------------------------
  // The fields container

  /** Which text field a `TextField` is: the record-name and artist-name
      fields are text fields that also follow search selections. */
  datatype TextRole = Plain | Record | Artist

  /** A child element of the fields container. `OtherChild` is any child
      without a `validate` method. */
  datatype Field =
    | SearchField(required: bool, spotifyUri: JsValue)
    | CoverField(coverData: JsValue)
    | TextField(role: TextRole, inputId: string, input: TextInput)
    | OptionField
    | OtherChild

  /** One child's `validate()`; `None` when calling it throws (no such method).
      An option field accepts unconditionally. */
  function ValidateField(f: Field): (r: Option<Verdict>)
    ensures r.None? <==> f.OtherChild?
    ensures f.OptionField? ==> r == Some(Verdict(true, []))
    ensures f.SearchField? ==> r == Some(ValidateSearch(f.required, f.spotifyUri))
    ensures f.CoverField? ==> r == Some(ValidateCover(f.coverData))
    ensures f.TextField? ==> r == Some(ValidateText(f.input))
  {
    match f
    case SearchField(required, uri) => Some(ValidateSearch(required, uri))
    case CoverField(data) => Some(ValidateCover(data))
    case TextField(_, _, input) => Some(ValidateText(input))
    case OptionField => Some(Verdict(true, []))
    case OtherChild => None
  }

  /** What `SpotiesFields.validate` does: either every child was validated,
      or the call threw at child `index` after validating the ones before. */
  datatype FieldsOutcome =
    | Validated(valid: bool, verdicts: seq<Verdict>)
    | Threw(index: nat, verdicts: seq<Verdict>)

  /** Combining the children's `validate()` results in order: either all
      of them returned, or the first one that threw stops the map. */
  function Combine(results: seq<Option<Verdict>>): (r: FieldsOutcome)
    ensures r.Validated? <==> forall i :: 0 <= i < |results| ==> results[i].Some?
    ensures r.Validated? ==>
              && |r.verdicts| == |results|
              && (forall i :: 0 <= i < |results| ==> results[i] == Some(r.verdicts[i]))
              && (r.valid <==> forall i :: 0 <= i < |results| ==> r.verdicts[i].valid)
    ensures r.Threw? ==>
              && r.index < |results| && results[r.index].None?
              && |r.verdicts| == r.index
              && (forall i :: 0 <= i < r.index ==> results[i] == Some(r.verdicts[i]))
    decreases |results|
  {
    if results == [] then Validated(true, [])
    else
      assert forall i :: 1 <= i < |results| ==> results[i] == results[1..][i - 1];
      match results[0]
      case None => Threw(0, [])
      case Some(v) =>
        match Combine(results[1..])
        case Validated(ok, vs) => Validated(v.valid && ok, [v] + vs)
        case Threw(k, vs) => Threw(k + 1, [v] + vs)
  }

  /** `children.map(child => child.validate()).every(Boolean)`: every child
      is validated, none is skipped because an earlier one failed, and the
      result is true exactly when every child's is. A child without a
      `validate` method makes the call throw. */
  function ValidateFields(children: seq<Field>): (r: FieldsOutcome)
    ensures r.Validated? <==> forall i :: 0 <= i < |children| ==> !children[i].OtherChild?
    ensures r.Validated? ==>
              && |r.verdicts| == |children|
              && (forall i :: 0 <= i < |children| ==> Some(r.verdicts[i]) == ValidateField(children[i]))
              && (r.valid <==> forall i :: 0 <= i < |children| ==> r.verdicts[i].valid)
    ensures r.Threw? ==>
              && r.index < |children| && children[r.index].OtherChild?
              && |r.verdicts| == r.index
              && (forall i :: 0 <= i < r.index ==> Some(r.verdicts[i]) == ValidateField(children[i]))
  {
    var results := seq(|children|, i requires 0 <= i < |children| => ValidateField(children[i]));
    assert forall i :: 0 <= i < |children| ==> (results[i].None? <==> children[i].OtherChild?);
    Combine(results)
  }

  /** The add-to-cart form goes ahead only when validation returned true. */
  predicate SubmitAllowed(children: seq<Field>)
  {
    var r := ValidateFields(children);
    r.Validated? && r.valid
  }

  /** A cover field without an image blocks submission, and shows the
      cover message. */
  lemma MissingCoverBlocksSubmit(children: seq<Field>, k: nat)
    requires k < |children| && children[k] == CoverField(Null)
    ensures !SubmitAllowed(children)
    ensures ValidateFields(children).Validated? ==> ValidateFields(children).verdicts[k].errors == [CoverMessage]
  {
    var r := ValidateFields(children);
    if r.Validated? {
      assert Some(r.verdicts[k]) == ValidateField(children[k]);
    }
  }

  /** A required search field without a chosen song blocks submission,
      and shows the song message. */
  lemma MissingSongBlocksSubmit(children: seq<Field>, k: nat)
    requires k < |children| && children[k].SearchField? && children[k].required
    requires children[k].spotifyUri == Null || children[k].spotifyUri == Undefined || children[k].spotifyUri == Str("")
    ensures !SubmitAllowed(children)
    ensures ValidateFields(children).Validated? ==> ValidateFields(children).verdicts[k].errors == [SearchMessage]
  {
    var r := ValidateFields(children);
    if r.Validated? {
      assert Some(r.verdicts[k]) == ValidateField(children[k]);
    }
  }

  /** A required text field holding only white space blocks submission; it
      shows the required message unless its minimum length fails too. */
  lemma BlankTextBlocksSubmit(children: seq<Field>, k: nat)
    requires k < |children| && children[k].TextField? && children[k].input.required
    requires forall i :: 0 <= i < |children[k].input.value| ==> JsStrings.IsWhiteSpace(children[k].input.value[i])
    ensures !SubmitAllowed(children)
    ensures ValidateFields(children).Validated? && MinOk(children[k].input) ==>
              RequiredMessage in ValidateFields(children).verdicts[k].errors
  {
    var r := ValidateFields(children);
    assert !RequiredOk(children[k].input);
    if r.Validated? {
      assert Some(r.verdicts[k]) == ValidateField(children[k]);
    }
  }

  /** A search field that is not required never blocks submission. */
  lemma OptionalSearchNeverFails(spotifyUri: JsValue)
    ensures ValidateField(SearchField(false, spotifyUri)) == Some(Verdict(true, []))
  {
  }
}

=== FILE: wrappers.dfy ===
/** Failure-carrying result types shared by every module of the model. */
module Wrappers {

  /** An optional value: `None` stands for JavaScript's `null`/`NaN`/missing result. */
  datatype Option<+T> = None | Some(value: T)

  /** The outcome of an operation that can throw: `Failure` carries what was thrown. */
  datatype Result<+T, +E> = Success(value: T) | Failure(error: E)
}
